=== FILE: README.md ===
# Queue engine model

This project models the queue engine of a station-queueing bot, `db/queries.js`, and the handler
that lists the stations with their free slots, `handlers/viewStations.js`. The model is written in
Dafny, and Dafny's verifier checks every contract and lemma.

The store is one immutable `Queries.State`. It holds:

- `master.stations`, the registry (`Registry`).
- One table `stations."<id>"` per station. Its rows are `(userID, queueNumber)` and it keeps a serial
  counter (`StationTable`).
- `master.participants`, keyed by user.
- `master.variables` (`Variables`).
- `miscellaneous.cache` and `miscellaneous.listeners` (`Cache`).

Each exported function of `queries.js` is modelled as a pure function of that state. A function that
writes returns the new state. A failed await is an `Err` carrying a `Types.Error`, and a SQL `null` is
`None`.

`enqueue` and `leaveQueue` each issue two separate statements, with no transaction and no rollback.
A `Faults(first, second)` argument says which statement the store rejects for a reason the model does
not otherwise explain. The model then returns exactly the state left by the statements that took
effect. The JavaScript behaviour the code depends on is modelled in `Text`:

- `String.prototype.trim` on station names, with the full ECMAScript white-space and
  line-terminator set.
- `parseInt` on the stored `maxLength`: white space, a sign, a `0x` prefix, then the longest digit run.
- Number-to-string conversion in the listing text.

The main properties proved:

- Both records stay in step across a successful `enqueue` and a successful `leaveQueue`. Each
  participants row points at a station row with the same queue number, and back again
  (`Queries.Consistent`).
- A failed second statement breaks that agreement.
- Enqueueing a user who is already queued breaks it too, because the code never checks for that.
- The count of users ahead is the user's index in the queue. It is zero exactly when the user is at
  the front.
- `getAllParticipants` has one key per station name. Its keys are only station names, and when two
  stations share a name the one with the larger id wins.
- The settings table reads back what was written, and only when exactly one row holds the key.
- Cache and listener rows round-trip, and the 48-hour sweep is idempotent and keeps fresh rows.
- The listing shows `max(0, maxLength - length)` slots per station, in ascending id order. It ignores
  each station's own `maxQueueLength`.

The code does not guard the two records of a queued user:

- `enqueue` checks neither whether the user is already queued nor whether the station is full.
- `enqueue` and `leaveQueue` each run two separate statements, with no transaction around them.
- The slot listing subtracts from the single global `maxLength` setting. It never reads a
  station's own `maxQueueLength`.

## Model

| member | source | states |
|---|---|---|
| Cache.StoreData | db/queries.js:12-21 | the cache gains exactly one row, `(key, data, now)`, after all existing rows |
| Cache.UpdateData | db/queries.js:23-32 | every row with the key gets the new data and time; every other row and the row count are unchanged |
| Cache.GetData | db/queries.js:34-42 | null exactly when no row has the key; otherwise the data of some row with that key |
| Cache.StoreThenGet | db/queries.js:12-42 | data stored under a key that had no row is what the next read returns |
| Cache.UpdateThenGet | db/queries.js:23-42 | after an update, a key that had rows reads as the new data, and a key with no row still reads as null |
| Cache.ClearOldEntries | db/queries.js:64-70 | every surviving row was already there and is at most 48 hours old |
| Cache.ClearKeepsFresh | db/queries.js:64-70 | no row inside the 48-hour window is deleted |
| Cache.ClearCountsRows | db/queries.js:64-70 | after the sweep a stale row occurs zero times and a fresh row as many times as before, duplicates included |
| Cache.ClearIdempotent | db/queries.js:64-70 | a second sweep at the same moment deletes nothing more |
| Cache.ClearExpiresKey | db/queries.js:64-70 | once every row of a key is older than the window, the key reads as null after a sweep |
| Cache.StoreListenerId | db/queries.js:44-51 | the chat's id list gains the id at its end; other chats are unchanged; no chat row is created |
| Cache.DestroyListenerIds | db/queries.js:53-62 | a chat with a row yields its whole id list; a chat without one fails, as reading `rows[0]` throws |
| Cache.StoreThenDestroy | db/queries.js:44-62 | the id stored last is deregistered last, after all earlier ids |
| Registry.GetStationIDs | db/queries.js:87-96 | every registered id appears exactly once, in strictly ascending order, and nothing else appears |
| Registry.GetStationNames | db/queries.js:72-81 | one name per station: the stored names put in name order, then each trimmed |
| Registry.StoredNamesMembers | db/queries.js:72-81 | a name is among the stored names exactly when some station has it |
| Registry.GetStationName | db/queries.js:131-140 | null exactly for an unknown id; otherwise a slice of the stored name with only white space around it that neither starts nor ends with white space |
| Registry.GetStationNameIsTrimmed | db/queries.js:139 | any slice of the stored name with only white space around it and none at its ends is exactly the name the lookup returns |
| Text.Trim | db/queries.js:139 | the result is a slice of the input with only JavaScript white space around it, and it neither starts nor ends with white space |
| Text.TrimmedUnique | db/queries.js:139 | a string has one trimmed form: two such slices are equal |
| Registry.GetTimeEach | db/queries.js:166-174 | null exactly for an unknown id; otherwise that station's service time |
| Registry.GetFrontMessage | db/queries.js:176-184 | null exactly for an unknown id; otherwise that station's front message |
| Registry.GetGroupId | db/queries.js:331-340 | null exactly for an unknown id; otherwise that station's admin group |
| Registry.GetAdminStationID | db/queries.js:317-329 | null exactly when no station has the group; otherwise some station whose group it is |
| Registry.AdminStationOfGroup | db/queries.js:317-340 | the station found for a group has that group, and any group a station has finds a station |
| Registry.SetMax | db/queries.js:386-393 | only the named station's `maxQueueLength` changes; an unknown id changes nothing |
| Registry.SetTimeEach | db/queries.js:395-402 | only the named station's `timeEach` changes; an unknown id changes nothing |
| Registry.SetTimeEachThenGet | db/queries.js:395-402 | the new service time is what that station reads next; no other station's reading changes |
| Queries.GetUserStationID | db/queries.js:109-118 | null exactly when the user has no participants row; otherwise that row's station |
| Queries.GetQueueNumber | db/queries.js:120-129 | null exactly when the user has no participants row; otherwise that row's queue number |
| Queries.GetQueueLength | db/queries.js:142-149 | fails exactly when the station's table is missing; otherwise the table's row count |
| Queries.GetQueueLengthAhead | db/queries.js:151-164 | null with no queue number; otherwise the given station's rows numbered below the user's number, never more than the queue length |
| StationTable.CountBelowIsPosition | db/queries.js:157-163 | in a table with increasing numbers, the rows below the k-th row's number are exactly the k rows before it |
| Queries.PositionIsIndex | db/queries.js:151-164 | a queued user's count ahead is their index in the queue, and it is zero exactly when they are the front user |
| StationTable.Insert | db/queries.js:189-194 | the row goes last, and its returned queue number exceeds every number already in the table |
| Queries.Enqueue | db/queries.js:186-211 | a missing table or failed first insert changes nothing; otherwise the station gains the user last; success exactly when the user had no participants row and no statement failed; a failed second insert leaves the station row in place |
| Queries.EnqueueKeepsConsistent | db/queries.js:186-211 | a successful enqueue keeps every participants row and station row mirrored, with numbers increasing |
| Queries.EnqueueGoesLast | db/queries.js:186-211 | after a successful enqueue the queue is one longer and everyone who was already queued is ahead of the newcomer |
| Queries.EnqueueQueuedUserLeavesOrphan | db/queries.js:186-211 | enqueueing a user who is already queued fails on the participants insert and leaves a station row no participants row mirrors |
| Queries.EnqueueSecondWriteFailureLeavesOrphan | db/queries.js:200-210 | a failing participants insert leaves the station row without a mirror, since nothing rolls it back |
| StationTable.Remove | db/queries.js:219-224 | every remaining row was already there and belongs to another user |
| StationTable.RemoveKeepsOthers | db/queries.js:219-224 | every other user's rows survive unchanged and in order, and none of the removed user's rows remain |
| Queries.LeaveQueue | db/queries.js:213-243 | false with no change when the user has no row or the station delete fails; true exactly when both deletes succeed; only the user's station table changes, and on success the participants rows lose exactly the user's row |
| Queries.LeaveRemovesUser | db/queries.js:213-243 | after a successful leave the user has no participants row and no row in any station |
| Queries.LeaveTwice | db/queries.js:213-217 | a second leave finds no participants row, returns false and changes nothing |
| Queries.LeaveKeepsConsistent | db/queries.js:213-243 | a successful leave keeps both records mirrored and the station numbers increasing |
| Queries.LeaveShortensQueue | db/queries.js:218-229 | a successful leave from a consistent state shortens the user's station by exactly one |
| Queries.LeaveSecondWriteFailureLeavesDangling | db/queries.js:230-242 | a failing participants delete leaves a participants row whose station row is gone |
| Queries.SingleActiveQueue | db/queries.js:109-118 | in a consistent state, any two rows of one user are the same row of the same station table: one station, one row |
| Queries.GetFrontUserId | db/queries.js:342-352 | fails exactly for a missing table; null exactly for an empty one; otherwise a user holding the least queue number |
| Queries.GetAllUserId | db/queries.js:354-366 | fails for a missing table; null, not an empty list, for an empty one; otherwise all users, ordered by queue number |
| StationTable.OrderByNumberOfIncreasing | db/queries.js:354-358 | rows already in increasing number order come back from the ordering unchanged |
| Queries.FrontIsFirstListed | db/queries.js:342-366 | the first user listed in order is the front user |
| Queries.FrontText | db/queries.js:368-383 | "no station" exactly when no station has the group; otherwise, for the station found for the group, an error exactly when its table is missing, "no participants" exactly when its front lookup is null, and a reported user is exactly its front user |
| Queries.FrontTextMessage | db/queries.js:368-383 | the returned text is "Error, unable to find station" exactly when no station has the group, "There are no participants in the queue." exactly when the station found is empty, and the front-user heading followed by that user's username otherwise; a missing table is an error |
| Queries.FrontTextIsOldest | db/queries.js:368-383 | for a non-empty station with increasing numbers, the user reported is the one who joined earliest |
| Queries.GetStationUserHandles | db/queries.js:409-416 | fails exactly for a missing table; otherwise each row's user once, in queue-number order, and an empty list for an empty station |
| Queries.GetAllParticipants | db/queries.js:421-430 | succeeds exactly when every registered station has a table; a failure names a station without one |
| Queries.AllParticipantsHasStation | db/queries.js:421-430 | every registered station's trimmed name is a key of the result |
| Queries.AllParticipantsOnlyStations | db/queries.js:421-430 | every key of the result is the trimmed name of a registered station |
| Queries.AllParticipantsLastWins | db/queries.js:421-430 | a station whose name no larger id shares maps to its users in queue order, so of two same-named stations the later one overwrites |
| Queries.IsSuperuser | db/queries.js:303-305 | true exactly when the chat id is in the configured superuser list |
| Queries.IsAdmin | db/queries.js:313-315 | true exactly when the chat id is in the admin list or is a superuser |
| Queries.SuperuserIsAdmin | db/queries.js:313-315 | every superuser is an admin |
| Variables.GetMasterVariable | db/queries.js:245-262 | not-found exactly when no row has the key; ambiguous exactly when two rows do; otherwise the value of the single row |
| Variables.SetMasterVariable | db/queries.js:264-272 | every row with the key takes the new value; other rows, row order and row count are unchanged; no row is inserted; the touched-row count is the number of rows with the key |
| Variables.GetAfterSet | db/queries.js:245-272 | reading a key after writing it gives the new value when exactly one row held it, and the earlier failure otherwise |
| Variables.GetOtherAfterSet | db/queries.js:264-272 | writing one key never changes how any other key reads |
| Variables.GetWaitTime | db/queries.js:274-276 | not-found exactly when no `waitTime` row exists; ambiguous exactly when two do; a value exactly when one row has the key, and then that row's value |
| Variables.SetWaitTime | db/queries.js:284-286 | every `waitTime` row takes the new time; keys, other values and the row count are unchanged; the touched-row count is the number of `waitTime` rows, so zero exactly when none exists |
| Variables.SetMaxQueueLength | db/queries.js:288-290 | every `maxLength` row takes the new limit; keys, other values and the row count are unchanged; the touched-row count is the number of `maxLength` rows, so zero exactly when none exists |
| Variables.WaitTimeRoundTrip | db/queries.js:274-286 | a wait time written over a single `waitTime` row is what the next read returns |
| Variables.SetWaitTimeKeepsMaxLength | db/queries.js:284-296 | changing the wait time never changes the queue-length limit |
| Variables.GetMaxQueueLengthInt | db/queries.js:292-296 | fails exactly when `maxLength` is missing or ambiguous; otherwise `parseInt` of the single stored value |
| Variables.MaxQueueLengthRoundTrip | db/queries.js:288-296 | a limit stored as a decimal integer over a single `maxLength` row reads back as that integer |
| Text.ParseInt | db/queries.js:294 | leading white space is skipped; an empty string, or a first non-space character that is neither a sign nor a decimal digit, gives NaN |
| Text.ParseIntOfNumeral | db/queries.js:294 | a decimal numeral followed by text that does not continue it reads as the numeral's value, except that `0` followed by `x` or `X` starts a hexadecimal numeral |
| Text.ParseIntOfIntToString | db/queries.js:292-296 | `parseInt` of an integer's decimal rendering is that integer, negative numbers included |
| ViewStations.Slots | handlers/viewStations.js:26 | never negative and never below `maxLength - length`; a positive result is exactly `maxLength - length`; NaN exactly when the limit is NaN |
| ViewStations.Blocks | handlers/viewStations.js:24-29 | one block per station in list order; fails exactly when a listed station has no table, naming that station |
| ViewStations.Init | handlers/viewStations.js:11-31 | outside a direct chat, only the guard text goes to the chat; with no stations, only the site text goes to the sender; otherwise nothing is sent exactly when the limit is unreadable or a station has no table |
| ViewStations.InitListing | handlers/viewStations.js:17-30 | a sent listing is the site text followed by one block per registered station, in ascending id order, against the one global limit |
| ViewStations.InitIgnoresStationMax | handlers/viewStations.js:22-28 | writing a station's own `maxQueueLength` never changes what the listing sends |
| ViewStations.EnqueueTakesASlot | handlers/viewStations.js:26 | after one more user joins a station its listed slots drop by one, unless they were already zero |

## Left out

- The database driver, SQL text and connection handling: every statement is a pure function of the
  modelled tables.
- Store failures the model does not otherwise explain appear only as the `Faults` argument of the
  two-statement writes. The read inside `leaveQueue` and the single-statement writes are taken to
  succeed.
- Concurrency: the awaits of one call are applied in program order to one state, and interleavings
  of several calls are not modelled.
- The messenger: `getUsername`, `messenger.send` and the usernames themselves. Handles are
  represented by user ids, and a sent message is a returned `Reply`.
- `initbot` and `bot.removeReplyListener`: `Cache.DestroyListenerIds` returns the ids it would
  deregister instead of calling out.
- `getWaitTimeMessage` and `sprintf`: the template is configuration.
- `JSON.stringify` and `JSON.parse` in the cache functions: payloads are kept as the serialised text.
- Console logging and the duplicate-group warning in `getAdminStationID`.
- `now()`: the current time is an integer number of seconds passed by the caller.
- `clearOldEntries` takes the schema and table to sweep as parameters. Only the sweep of
  `miscellaneous.cache` is modelled; the columns of the other tables, and whether any of them has
  a `time` column, are not known to this model.
- Cache.GetData: the query has no `order by`, so any matching row may come back. The contract
  promises only "some row with the key".
- Registry.GetAdminStationID: the query has no `order by`, so any matching station may come back.
  The contract promises only "some station of that group".
- Queries.GetQueueLengthAhead: the code returns the count as the driver delivers it, a string, and
  not through `parseInt`. The model returns the number.
- Text.ParseInt: numbers too large for a double are not modelled; every digit run reads as its
  exact integer value.
- JavaScript numbers are integers or NaN: no fractions, no infinities, no exponent formatting.
- Registry.GetStationNames: Postgres collation is replaced by code-point order.
- A `NULL` listener array, which `array_append` would turn into a one-element list, is not modelled.
- The per-station table definition is not part of this model. Its `queueNumber` is assumed to be a
  serial counter that increases by one per insert, and `master.participants` is assumed to be keyed
  by `userID`.
- `master.stations` is assumed to be keyed by `stationID`, with non-null `name`, `timeEach`,
  `frontMessage` and `groupID`. `miscellaneous.listeners` is assumed to hold at most one row per
  `chat_id`. The table definitions are not part of this model. A NULL `timeEach`, `frontMessage` or
  `groupID` would make `Registry.GetTimeEach`, `Registry.GetFrontMessage` or `Registry.GetGroupId`
  return null for a known id. A NULL `name` would make `trim()` throw, so `getStationName`,
  `getStationNames`, `getAllParticipants` and `init` would reject for that station.
- `master.variables.value` is assumed to be non-null: every `VarRow` value is a string. A NULL value
  would make `getMasterVariable` return null and `parseInt` of it NaN.
- Queries.GetAllParticipants: the result is a map from name to users, so it keeps the key set and
  each key's value but not the JavaScript object's key enumeration order: insertion order of the
  first write, with integer-like names first in numeric order. A station named `__proto__` would
  set the object's prototype rather than add a key; the model gives it an ordinary key.
- Queries.FrontTextMessage: the username comes from a parameter standing for
  `messenger.getUsername`. `Queries.FrontText` reports the outcome, and the text is built from it.
- `maxQueueLength` per station is written by `setMax` but read by nothing in the modelled code. The
  model stores it and proves the listing ignores it.

=== FILE: cache.dfy ===
/** The auxiliary tables `miscellaneous.cache` (rows `(key, data, time)`) and
    `miscellaneous.listeners` (one list of reply-listener ids per chat).

    Time is an integer number of seconds supplied by the caller in place of the
    database's `now()`. Payloads are kept as the serialised text the code stores. */
module Cache {
  import opened Types

  datatype CacheRow = CacheRow(key: string, data: string, time: int)

  /** `interval '48 hours'`, in seconds. */
  const RetentionSeconds: int := 48 * 60 * 60

  ghost predicate HasKey(rows: seq<CacheRow>, k: string) {
    exists i :: 0 <= i < |rows| && rows[i].key == k
  }

  /** `storeData`: `insert into miscellaneous.cache (key, data, time) values ($1, $2, now())`. */
  function StoreData(rows: seq<CacheRow>, k: string, data: string, now: int): (r: seq<CacheRow>)
    ensures |r| == |rows| + 1 && r[..|rows|] == rows
    ensures r[|rows|] == CacheRow(k, data, now)
  {
    rows + [CacheRow(k, data, now)]
  }

  /** `updateData`: every row with the key gets the new payload and a fresh time; no row is added. */
  function UpdateData(rows: seq<CacheRow>, k: string, data: string, now: int): (r: seq<CacheRow>)
    ensures |r| == |rows|
    ensures forall i :: 0 <= i < |rows| && rows[i].key == k ==> r[i] == CacheRow(k, data, now)
    ensures forall i :: 0 <= i < |rows| && rows[i].key != k ==> r[i] == rows[i]
  {
    seq(|rows|, i requires 0 <= i < |rows| => if rows[i].key == k then CacheRow(k, data, now) else rows[i])
  }

  /** `getData`: the payload of the first row returned for the key, or null. The query has
      no `order by`; this model returns the earliest stored row, and the contract promises
      only "the payload of some row with the key". */
  function GetData(rows: seq<CacheRow>, k: string): (r: Option<string>)
    ensures r.None? <==> !HasKey(rows, k)
    ensures r.Some? ==> exists i :: 0 <= i < |rows| && rows[i].key == k && rows[i].data == r.value
  {
    if rows == [] then None
    else if rows[0].key == k then Some(rows[0].data)
    else
      var r := GetData(rows[1..], k);
      assert HasKey(rows, k) ==> HasKey(rows[1..], k) by {
        if HasKey(rows, k) {
          var i :| 0 <= i < |rows| && rows[i].key == k;
          assert rows[1..][i - 1] == rows[i];
        }
      }
      assert r.Some? ==> exists i :: 0 <= i < |rows| && rows[i].key == k && rows[i].data == r.value by {
        if r.Some? {
          var i :| 0 <= i < |rows[1..]| && rows[1..][i].key == k && rows[1..][i].data == r.value;
          assert rows[i + 1] == rows[1..][i];
        }
      }
      r
  }

  /** A row is stale once more than the retention window separates it from `now`. */
  predicate Stale(row: CacheRow, now: int) {
    now - row.time > RetentionSeconds
  }

  /** `clearOldEntries`: `delete ... where now() - time > interval '48 hours'`. */
  function ClearOldEntries(rows: seq<CacheRow>, now: int): (r: seq<CacheRow>)
    ensures forall row :: row in r ==> row in rows && !Stale(row, now)
    ensures |r| <= |rows|
  {
    if rows == [] then []
    else if Stale(rows[0], now) then ClearOldEntries(rows[1..], now)
    else [rows[0]] + ClearOldEntries(rows[1..], now)
  }

  /** Every row still inside the window survives the sweep. */
  lemma {:induction false} ClearKeepsFresh(rows: seq<CacheRow>, now: int, row: CacheRow)
    requires row in rows && !Stale(row, now)
    ensures row in ClearOldEntries(rows, now)
  {
    if rows[0] != row {
      ClearKeepsFresh(rows[1..], now, row);
    }
  }

  /** The sweep deletes every copy of a stale row and keeps every copy of a fresh one. */
  lemma {:induction false} ClearCountsRows(rows: seq<CacheRow>, now: int)
    ensures forall row ::
      multiset(ClearOldEntries(rows, now))[row] == if Stale(row, now) then 0 else multiset(rows)[row]
  {
    if rows != [] {
      ClearCountsRows(rows[1..], now);
      assert rows == [rows[0]] + rows[1..];
    }
  }

  /** A second sweep at the same moment removes nothing more. */
  lemma {:induction false} ClearIdempotent(rows: seq<CacheRow>, now: int)
    ensures ClearOldEntries(ClearOldEntries(rows, now), now) == ClearOldEntries(rows, now)
  {
    if rows != [] {
      ClearIdempotent(rows[1..], now);
    }
  }

  /** A payload stored under a new key is what the next read returns. */
  lemma StoreThenGet(rows: seq<CacheRow>, k: string, data: string, now: int)
    requires !HasKey(rows, k)
    ensures GetData(StoreData(rows, k, data, now), k) == Some(data)
  {
    var r := StoreData(rows, k, data, now);
    var g := GetData(r, k);
    assert r[|rows|].key == k;
    if g.Some? {
      var i :| 0 <= i < |r| && r[i].key == k && r[i].data == g.value;
      if i < |rows| {
        assert rows[i] == r[i];
      }
    }
  }

  /** Updating a key that has rows makes every read of it return the new payload;
      updating a key with no row leaves it unreadable. */
  lemma UpdateThenGet(rows: seq<CacheRow>, k: string, data: string, now: int)
    ensures GetData(UpdateData(rows, k, data, now), k) == if HasKey(rows, k) then Some(data) else None
  {
    var r := UpdateData(rows, k, data, now);
    if HasKey(rows, k) {
      var i :| 0 <= i < |rows| && rows[i].key == k;
      assert r[i].key == k;
    } else {
      forall i | 0 <= i < |r| ensures r[i].key != k {
        assert rows[i].key != k;
      }
    }
  }

  /** Once every row of a key is older than the window, a sweep makes the key unreadable. */
  lemma ClearExpiresKey(rows: seq<CacheRow>, k: string, now: int)
    requires forall i :: 0 <= i < |rows| && rows[i].key == k ==> Stale(rows[i], now)
    ensures GetData(ClearOldEntries(rows, now), k) == None
  {
    var r := ClearOldEntries(rows, now);
    forall i | 0 <= i < |r| ensures r[i].key != k {
      assert r[i] in rows && !Stale(r[i], now);
      var j :| 0 <= j < |rows| && rows[j] == r[i];
    }
  }

  // ----- miscellaneous.listeners -----

  type Listeners = map<ChatId, seq<ListenerId>>

  /** `storeListenerId`: appends to the chat's list; a chat without a row is left without one. */
  function StoreListenerId(ls: Listeners, id: ListenerId, chat: ChatId): (r: Listeners)
    ensures r.Keys == ls.Keys
    ensures chat in ls ==> r[chat] == ls[chat] + [id]
    ensures forall c :: c in ls && c != chat ==> r[c] == ls[c]
  {
    if chat in ls then ls[chat := ls[chat] + [id]] else ls
  }

  /** `destroyListenerIds`: the ids handed to the external deregistration callback, in list
      order. The list itself is not cleared; the caller gets no new table state. Reading
      `rows[0]` of an empty result throws. */
  function DestroyListenerIds(ls: Listeners, chat: ChatId): (r: Result<seq<ListenerId>>)
    ensures r.Err? <==> chat !in ls
    ensures r.Ok? ==> r.value == ls[chat]
  {
    if chat in ls then Ok(ls[chat]) else Err(NoListenerRow(chat))
  }

  /** The id stored last is the last one deregistered, after all the earlier ones. */
  lemma StoreThenDestroy(ls: Listeners, id: ListenerId, chat: ChatId)
    requires chat in ls
    ensures DestroyListenerIds(StoreListenerId(ls, id, chat), chat) == Ok(ls[chat] + [id])
  {
  }
}

=== FILE: queries.dfy ===
/** The queue engine of `db/queries.js` as a sequential state machine over the tables
    its SQL reads and writes.

    Every statement is applied to an immutable `State`; an operation that issues two
    writes returns the state after whatever writes took effect, because the code runs
    them as separate statements with no transaction and no rollback. */
module Queries {
  import opened Types
  import opened StationTable
  import Registry
  import Variables
  import Cache

  /** A row of `master.participants`, keyed by `userID`. */
  datatype Participant = Participant(station: StationId, number: nat)

  datatype State = State(
    stations: Registry.Stations,                 // master.stations
    tables: map<StationId, Table>,               // stations."<id>", one per existing table
    participants: map<UserId, Participant>,      // master.participants
    variables: seq<Variables.VarRow>,            // master.variables
    cache: seq<Cache.CacheRow>,                  // miscellaneous.cache
    listeners: Cache.Listeners)                  // miscellaneous.listeners

  /** The configured admin and superuser chat ids, the bot's name and the site text. */
  datatype Config = Config(admins: seq<ChatId>, superusers: seq<ChatId>, botName: string, websiteText: string)

  /** Whether the store rejects the first or the second statement of a two-statement
      operation for a reason this model does not otherwise explain (a lost connection,
      a constraint not modelled). */
  datatype Faults = Faults(first: bool, second: bool)

  /** The state after an operation, and what the operation returned. */
  datatype Step<T> = Step(state: State, out: T)

  // ----- invariants -----

  ghost predicate TablesValid(st: State) {
    forall s :: s in st.tables ==> Valid(st.tables[s])
  }

  /** Every participants row points at a row of its station's table carrying the same
      queue number, and every station-table row has a participants row pointing back. */
  ghost predicate Mirrored(st: State) {
    RowsBacked(st) && EntriesOwned(st)
  }

  ghost predicate RowsBacked(st: State) {
    forall u :: u in st.participants ==>
      st.participants[u].station in st.tables
      && Entry(u, st.participants[u].number) in st.tables[st.participants[u].station].entries
  }

  ghost predicate EntriesOwned(st: State) {
    forall s, e :: s in st.tables && e in st.tables[s].entries ==>
      e.user in st.participants && st.participants[e.user] == Participant(s, e.number)
  }

  ghost predicate Consistent(st: State) {
    TablesValid(st) && Mirrored(st)
  }

  /** The registry, settings and auxiliary tables are untouched. */
  ghost predicate SameOtherTables(a: State, b: State) {
    a.stations == b.stations && a.variables == b.variables && a.cache == b.cache && a.listeners == b.listeners
  }

  // ----- reads -----

  /** `getUserStationID`: the station of the user's participants row, or null. */
  function GetUserStationID(st: State, u: UserId): (r: Option<StationId>)
    ensures r.Some? <==> u in st.participants
    ensures r.Some? ==> r.value == st.participants[u].station
  {
    if u in st.participants then Some(st.participants[u].station) else None
  }

  /** `getQueueNumber`: the queue number of the user's participants row, or null. */
  function GetQueueNumber(st: State, u: UserId): (r: Option<nat>)
    ensures r.Some? <==> u in st.participants
    ensures r.Some? ==> r.value == st.participants[u].number
  {
    if u in st.participants then Some(st.participants[u].number) else None
  }

  /** `getQueueLength`: `count(*)` of the station's table; the query throws when the table is missing. */
  function GetQueueLength(st: State, s: StationId): (r: Result<nat>)
    ensures r.Err? <==> s !in st.tables
    ensures r.Err? ==> r.error == NoSuchTable(s)
    ensures r.Ok? ==> r.value == |st.tables[s].entries|
  {
    if s in st.tables then Ok(|st.tables[s].entries|) else Err(NoSuchTable(s))
  }

  /** `getQueueLengthAhead(stationID, userID)`: null when the user has no queue number;
      otherwise the rows of the GIVEN station whose number is below the user's number,
      wherever the user's own row is. */
  function GetQueueLengthAhead(st: State, s: StationId, u: UserId): (r: Result<Option<nat>>)
    ensures u !in st.participants ==> r == Ok(None)
    ensures u in st.participants && s !in st.tables ==> r == Err(NoSuchTable(s))
    ensures u in st.participants && s in st.tables ==>
      r == Ok(Some(CountBelow(st.tables[s].entries, st.participants[u].number)))
    ensures r.Ok? && r.value.Some? ==> GetQueueLength(st, s).Ok? && r.value.value <= GetQueueLength(st, s).value
  {
    match GetQueueNumber(st, u)
    case None => Ok(None)
    case Some(n) =>
      if s in st.tables then Ok(Some(CountBelow(st.tables[s].entries, n))) else Err(NoSuchTable(s))
  }

  /** `getFrontUserId`: the user with the least queue number, null for an empty station. */
  function GetFrontUserId(st: State, s: StationId): (r: Result<Option<UserId>>)
    ensures r.Err? <==> s !in st.tables
    ensures r.Ok? ==> (r.value.None? <==> st.tables[s].entries == [])
    ensures r.Ok? && r.value.Some? ==>
      (exists e :: e in st.tables[s].entries && e.user == r.value.value
         && forall f :: f in st.tables[s].entries ==> e.number <= f.number)
  {
    if s in st.tables then Ok(Front(st.tables[s].entries)) else Err(NoSuchTable(s))
  }

  /** `rows` lists the users of `es` in ascending queue-number order. */
  ghost predicate ListedInOrder(es: seq<Entry>, users: seq<UserId>) {
    exists sorted :: SortedByNumber(sorted) && multiset(sorted) == multiset(es) && users == Users(sorted)
  }

  /** `getAllUserId`: the users in ascending queue-number order; null (not an empty list)
      for an empty station. */
  function GetAllUserId(st: State, s: StationId): (r: Result<Option<seq<UserId>>>)
    ensures r.Err? <==> s !in st.tables
    ensures r.Ok? ==> (r.value.None? <==> st.tables[s].entries == [])
    ensures r.Ok? && r.value.Some? ==>
      |r.value.value| == |st.tables[s].entries| && ListedInOrder(st.tables[s].entries, r.value.value)
  {
    if s !in st.tables then Err(NoSuchTable(s))
    else
      var es := st.tables[s].entries;
      if es == [] then Ok(None)
      else
        var sorted := OrderByNumber(es);
        assert |sorted| == |multiset(es)|;
        Ok(Some(Users(sorted)))
  }

  /** The first user listed is the user at the front. */
  lemma FrontIsFirstListed(st: State, s: StationId)
    requires TablesValid(st) && s in st.tables && st.tables[s].entries != []
    ensures GetAllUserId(st, s).value.Some?
    ensures GetAllUserId(st, s).value.value[0] == GetFrontUserId(st, s).value.value
  {
    var es := st.tables[s].entries;
    OrderByNumberOfIncreasing(es);
    FrontOfIncreasingIsFirst(es);
  }

  // ----- enqueue -----

  /** `after` differs from `before` only in station `s`'s table, which gained one row for
      `u` at the back with a number above every number already in the table. */
  ghost predicate AppendedAt(before: State, after: State, u: UserId, s: StationId) {
    && s in before.tables
    && after.tables.Keys == before.tables.Keys
    && (forall o :: o in before.tables && o != s ==> after.tables[o] == before.tables[o])
    && var prior := before.tables[s].entries;
       var grown := after.tables[s].entries;
       && |grown| == |prior| + 1
       && grown[..|prior|] == prior
       && grown[|prior|].user == u
       && (Valid(before.tables[s]) ==> Valid(after.tables[s]))
       && (Valid(before.tables[s]) ==> forall e :: e in prior ==> e.number < grown[|prior|].number)
  }

  /** `enqueue(userId, stationID)`: insert into the station's table, then insert the
      participants row carrying the number the first insert returned. There is no check
      that the user is already queued and no capacity check. If the first insert throws
      nothing changes; if the second throws, the station row stays. `master.participants`
      is taken to be keyed by `userID`, so the second insert is rejected for a user who
      already has a row. */
  function Enqueue(st: State, u: UserId, s: StationId, f: Faults): (r: Step<Outcome>)
    ensures s !in st.tables || f.first ==> r == Step(st, Fail(StationInsertFailed))
    ensures s in st.tables && !f.first ==> AppendedAt(st, r.state, u, s)
    ensures SameOtherTables(st, r.state)
    ensures r.out == Pass <==> s in st.tables && !f.first && !f.second && u !in st.participants
    ensures r.out == Pass ==>
      r.state.participants == st.participants[u := Participant(s, r.state.tables[s].entries[|st.tables[s].entries|].number)]
    ensures r.out != Pass ==> r.state.participants == st.participants
    ensures r.out.Fail? ==> r.out.error in {StationInsertFailed, ParticipantInsertFailed}
  {
    if s !in st.tables || f.first then Step(st, Fail(StationInsertFailed))
    else
      var (t, n) := Insert(st.tables[s], u);
      var st1 := st.(tables := st.tables[s := t]);
      if u in st.participants || f.second then Step(st1, Fail(ParticipantInsertFailed))
      else Step(st1.(participants := st.participants[u := Participant(s, n)]), Pass)
  }

  lemma EnqueueKeepsTablesValid(st: State, u: UserId, s: StationId, f: Faults)
    requires TablesValid(st)
    ensures TablesValid(Enqueue(st, u, s, f).state)
  {
  }

  /** A successful enqueue of a user with no participants row keeps both records in step. */
  lemma EnqueueKeepsConsistent(st: State, u: UserId, s: StationId, f: Faults)
    requires Consistent(st)
    requires Enqueue(st, u, s, f).out == Pass
    ensures Consistent(Enqueue(st, u, s, f).state)
  {
    EnqueueKeepsTablesValid(st, u, s, f);
    var st' := Enqueue(st, u, s, f).state;
    var prior := st.tables[s].entries;
    var grown := st'.tables[s].entries;
    assert grown == prior + [Entry(u, grown[|prior|].number)] by {
      assert grown == grown[..|prior|] + [grown[|prior|]];
    }
    EnqueueKeepsRowsBacked(st, st', u, s, grown[|prior|].number, st'.tables[s].next);
    EnqueueKeepsEntriesOwned(st, st', u, s, grown[|prior|].number, st'.tables[s].next);
  }

  lemma EnqueueKeepsRowsBacked(st: State, st': State, u: UserId, s: StationId, n: nat, next: nat)
    requires RowsBacked(st) && s in st.tables && u !in st.participants
    requires st' == st.(tables := st.tables[s := Table(st.tables[s].entries + [Entry(u, n)], next)],
                        participants := st.participants[u := Participant(s, n)])
    ensures RowsBacked(st')
  {
    forall v | v in st'.participants
      ensures st'.participants[v].station in st'.tables
      ensures Entry(v, st'.participants[v].number) in st'.tables[st'.participants[v].station].entries
    {
      if v != u {
        var p := st.participants[v];
        assert Entry(v, p.number) in st.tables[p.station].entries;
      }
    }
  }

  lemma EnqueueKeepsEntriesOwned(st: State, st': State, u: UserId, s: StationId, n: nat, next: nat)
    requires EntriesOwned(st) && s in st.tables && u !in st.participants
    requires st' == st.(tables := st.tables[s := Table(st.tables[s].entries + [Entry(u, n)], next)],
                        participants := st.participants[u := Participant(s, n)])
    ensures EntriesOwned(st')
  {
    forall o, e | o in st'.tables && e in st'.tables[o].entries
      ensures e.user in st'.participants && st'.participants[e.user] == Participant(o, e.number)
    {
      if o != s || e in st.tables[s].entries {
        assert e in st.tables[o].entries;
      }
    }
  }

  /** The newcomer is last: every row already in the station is ahead of it. */
  lemma EnqueueGoesLast(st: State, u: UserId, s: StationId, f: Faults)
    requires Consistent(st)
    requires Enqueue(st, u, s, f).out == Pass
    ensures GetQueueLength(Enqueue(st, u, s, f).state, s) == Ok(GetQueueLength(st, s).value + 1)
    ensures GetQueueLengthAhead(Enqueue(st, u, s, f).state, s, u) == Ok(Some(GetQueueLength(st, s).value))
  {
    var st' := Enqueue(st, u, s, f).state;
    var prior := st.tables[s].entries;
    EnqueueKeepsTablesValid(st, u, s, f);
    CountBelowIsPosition(st'.tables[s].entries, |prior|);
  }

  /** With no already-queued check, enqueueing a queued user adds a second station row that
      no participants row mirrors. */
  lemma EnqueueQueuedUserLeavesOrphan(st: State, u: UserId, s: StationId, f: Faults)
    requires Consistent(st)
    requires u in st.participants && s in st.tables && !f.first
    ensures Enqueue(st, u, s, f).out == Fail(ParticipantInsertFailed)
    ensures !Mirrored(Enqueue(st, u, s, f).state)
  {
    var st' := Enqueue(st, u, s, f).state;
    var prior := st.tables[s].entries;
    var e := st'.tables[s].entries[|prior|];
    assert e in st'.tables[s].entries;
    var p := st.participants[u];
    if p.station == s {
      assert Entry(u, p.number) in prior;
    }
    assert st'.participants[u] != Participant(s, e.number);
  }

  /** Without rollback, a failing participants insert leaves the station row behind. */
  lemma EnqueueSecondWriteFailureLeavesOrphan(st: State, u: UserId, s: StationId)
    requires Consistent(st)
    requires u !in st.participants && s in st.tables
    ensures Enqueue(st, u, s, Faults(false, true)).out == Fail(ParticipantInsertFailed)
    ensures !Mirrored(Enqueue(st, u, s, Faults(false, true)).state)
  {
    var st' := Enqueue(st, u, s, Faults(false, true)).state;
    var prior := st.tables[s].entries;
    assert st'.tables[s].entries[|prior|] in st'.tables[s].entries;
  }

  // ----- leaveQueue -----

  /** `leaveQueue(userId)`: false and no change when the user has no participants row;
      otherwise delete the user's rows from that station's table, then the participants
      row. Each delete that throws makes the call return false; a throw in the second
      delete leaves the first in effect. */
  function LeaveQueue(st: State, u: UserId, f: Faults): (r: Step<bool>)
    ensures u !in st.participants ==> r == Step(st, false)
    ensures u in st.participants && (st.participants[u].station !in st.tables || f.first) ==> r == Step(st, false)
    ensures SameOtherTables(st, r.state)
    ensures r.out <==> u in st.participants && st.participants[u].station in st.tables && !f.first && !f.second
    ensures r.out ==> r.state.participants == st.participants - {u}
    ensures r.state.participants != st.participants ==> r.out
    ensures r.state.tables.Keys == st.tables.Keys
    ensures forall o :: o in st.tables && (u !in st.participants || o != st.participants[u].station) ==>
      r.state.tables[o] == st.tables[o]
    ensures u in st.participants && st.participants[u].station in st.tables && !f.first ==>
      var s := st.participants[u].station;
      r.state.tables[s] == DeleteUser(st.tables[s], u)
  {
    match GetUserStationID(st, u)
    case None => Step(st, false)
    case Some(s) =>
      if s !in st.tables || f.first then Step(st, false)
      else
        var st1 := st.(tables := st.tables[s := DeleteUser(st.tables[s], u)]);
        if f.second then Step(st1, false)
        else Step(st1.(participants := st.participants - {u}), true)
  }

  /** Once a leave succeeded, the user is nowhere: no participants row, no station row. */
  lemma LeaveRemovesUser(st: State, u: UserId, f: Faults)
    requires Consistent(st)
    requires LeaveQueue(st, u, f).out
    ensures GetUserStationID(LeaveQueue(st, u, f).state, u) == None
    ensures forall o, e :: o in LeaveQueue(st, u, f).state.tables && e in LeaveQueue(st, u, f).state.tables[o].entries ==> e.user != u
  {
    var st' := LeaveQueue(st, u, f).state;
    var s := st.participants[u].station;
    forall o, e | o in st'.tables && e in st'.tables[o].entries ensures e.user != u {
      if o != s {
        assert e in st.tables[o].entries;
      }
    }
  }

  /** A second leave finds no participants row: it returns false and changes nothing. */
  lemma LeaveTwice(st: State, u: UserId, f1: Faults, f2: Faults)
    requires LeaveQueue(st, u, f1).out
    ensures LeaveQueue(LeaveQueue(st, u, f1).state, u, f2) == Step(LeaveQueue(st, u, f1).state, false)
  {
  }

  /** A successful leave keeps both records in step. */
  lemma LeaveKeepsConsistent(st: State, u: UserId, f: Faults)
    requires Consistent(st)
    requires LeaveQueue(st, u, f).out
    ensures Consistent(LeaveQueue(st, u, f).state)
  {
    var s := st.participants[u].station;
    RemovePreservesValid(st.tables[s], u);
    LeaveKeepsRowsBacked(st, u, f);
    LeaveKeepsEntriesOwned(st, u, f);
  }

  lemma LeaveKeepsRowsBacked(st: State, u: UserId, f: Faults)
    requires Consistent(st)
    requires LeaveQueue(st, u, f).out
    ensures RowsBacked(LeaveQueue(st, u, f).state)
  {
    var st' := LeaveQueue(st, u, f).state;
    var s := st.participants[u].station;
    forall v | v in st'.participants
      ensures st'.participants[v].station in st'.tables
      ensures Entry(v, st'.participants[v].number) in st'.tables[st'.participants[v].station].entries
    {
      var q := st.participants[v];
      assert Entry(v, q.number) in st.tables[q.station].entries;
      if q.station == s {
        RemoveKeeps(st.tables[s].entries, u, Entry(v, q.number));
      }
    }
  }

  lemma LeaveKeepsEntriesOwned(st: State, u: UserId, f: Faults)
    requires Consistent(st)
    requires LeaveQueue(st, u, f).out
    ensures EntriesOwned(LeaveQueue(st, u, f).state)
  {
    var st' := LeaveQueue(st, u, f).state;
    forall o, e | o in st'.tables && e in st'.tables[o].entries
      ensures e.user in st'.participants && st'.participants[e.user] == Participant(o, e.number)
    {
      assert e in st.tables[o].entries;
    }
  }

  /** A successful leave from a consistent state shortens the user's station by exactly one. */
  lemma LeaveShortensQueue(st: State, u: UserId, f: Faults)
    requires Consistent(st)
    requires LeaveQueue(st, u, f).out
    ensures GetQueueLength(LeaveQueue(st, u, f).state, st.participants[u].station)
      == Ok(GetQueueLength(st, st.participants[u].station).value - 1)
  {
    var p := st.participants[u];
    OnlyOneRow(st, u);
    RemoveOneRow(st.tables[p.station].entries, u, p.number);
  }

  /** In a consistent state a user's rows are exactly one row, in the participants row's station. */
  lemma OnlyOneRow(st: State, u: UserId)
    requires Consistent(st) && u in st.participants
    ensures var p := st.participants[u];
      forall e :: e in st.tables[p.station].entries && e.user == u ==> e == Entry(u, p.number)
    ensures var p := st.participants[u];
      forall i, j :: 0 <= i < j < |st.tables[p.station].entries| ==>
        st.tables[p.station].entries[i].user != u || st.tables[p.station].entries[j].user != u
  {
    var p := st.participants[u];
    var es := st.tables[p.station].entries;
    forall i, j | 0 <= i < j < |es| ensures es[i].user != u || es[j].user != u {
      assert es[i] in es && es[j] in es;
      assert es[i].number < es[j].number;
    }
  }

  /** Removing a user that has exactly one row, `Entry(u, n)`, drops exactly one row. */
  lemma {:induction false} RemoveOneRow(es: seq<Entry>, u: UserId, n: nat)
    requires Entry(u, n) in es
    requires forall e :: e in es && e.user == u ==> e == Entry(u, n)
    requires forall i, j :: 0 <= i < j < |es| ==> es[i].user != u || es[j].user != u
    ensures |Remove(es, u)| == |es| - 1
  {
    var tail := es[1..];
    assert forall e :: e in tail ==> e in es;
    assert forall i, j :: 0 <= i < j < |tail| ==> tail[i].user != u || tail[j].user != u by {
      forall i, j | 0 <= i < j < |tail| ensures tail[i].user != u || tail[j].user != u {
        assert tail[i] == es[i + 1] && tail[j] == es[j + 1];
      }
    }
    if es[0].user == u {
      forall e | e in tail ensures e.user != u {
        var j :| 0 <= j < |tail| && tail[j] == e;
        assert es[j + 1] == e;
      }
      RemoveNone(tail, u);
    } else {
      RemoveOneRow(tail, u, n);
    }
  }

  lemma {:induction false} RemoveNone(es: seq<Entry>, u: UserId)
    requires forall e :: e in es ==> e.user != u
    ensures Remove(es, u) == es
  {
    if es != [] {
      assert es[0] in es;
      assert forall e :: e in es[1..] ==> e in es;
      RemoveNone(es[1..], u);
    }
  }

  /** Without rollback, a failing participants delete leaves a row pointing at nothing. */
  lemma LeaveSecondWriteFailureLeavesDangling(st: State, u: UserId)
    requires Consistent(st) && u in st.participants
    ensures !LeaveQueue(st, u, Faults(false, true)).out
    ensures !Mirrored(LeaveQueue(st, u, Faults(false, true)).state)
  {
    var st' := LeaveQueue(st, u, Faults(false, true)).state;
    var p := st.participants[u];
    assert st'.participants[u] == p;
    assert Entry(u, p.number) !in st'.tables[p.station].entries;
  }

  // ----- positions -----

  /** A queued user's count of rows ahead is their index in the station's queue, and it is
      zero exactly when they are at the front. */
  lemma PositionIsIndex(st: State, u: UserId)
    requires Consistent(st) && u in st.participants
    ensures var p := st.participants[u];
      var es := st.tables[p.station].entries;
      exists k :: 0 <= k < |es| && es[k] == Entry(u, p.number)
        && GetQueueLengthAhead(st, p.station, u) == Ok(Some(k))
        && (k == 0 <==> GetFrontUserId(st, p.station) == Ok(Some(u)))
  {
    var p := st.participants[u];
    var es := st.tables[p.station].entries;
    var k :| 0 <= k < |es| && es[k] == Entry(u, p.number);
    CountBelowIsPosition(es, k);
    FrontOfIncreasingIsFirst(es);
    if es[0].user == u {
      assert es[0] in es;
    }
  }

  /** Each user stands in at most one station's queue, and at most once in it: any two
      rows of the user, wherever they are, are the same row of the same table. */
  lemma SingleActiveQueue(st: State, u: UserId, s1: StationId, i1: int, s2: StationId, i2: int)
    requires Consistent(st)
    requires s1 in st.tables && 0 <= i1 < |st.tables[s1].entries| && st.tables[s1].entries[i1].user == u
    requires s2 in st.tables && 0 <= i2 < |st.tables[s2].entries| && st.tables[s2].entries[i2].user == u
    ensures s1 == s2 && i1 == i2
  {
    var e1 := st.tables[s1].entries[i1];
    var e2 := st.tables[s2].entries[i2];
    assert e1 in st.tables[s1].entries && e2 in st.tables[s2].entries;
    assert st.participants[u] == Participant(s1, e1.number) == Participant(s2, e2.number);
    assert Valid(st.tables[s1]);
  }

  // ----- listings built on the station tables -----

  /** What `frontText` reports for an admin group, with the user id in place of the
      username the messenger would resolve. */
  datatype FrontReport = NoStation | NoParticipants | FrontUser(user: UserId)

  /** `frontText(groupID)`: no station for the group; otherwise the front of the station
      found, which is no participant for an empty table and an error for a missing one. */
  function FrontText(st: State, g: GroupId): (r: Result<FrontReport>)
    ensures r == Ok(NoStation) <==> Registry.GetAdminStationID(st.stations, g).None?
    ensures Registry.GetAdminStationID(st.stations, g).Some? ==>
      var s := Registry.GetAdminStationID(st.stations, g).value;
      && s in st.stations && st.stations[s].groupID == g
      && (r.Err? <==> s !in st.tables)
      && (r == Ok(NoParticipants) <==> GetFrontUserId(st, s) == Ok(None))
      && (r.Ok? && r.value.FrontUser? ==> GetFrontUserId(st, s) == Ok(Some(r.value.user)))
  {
    match Registry.GetAdminStationID(st.stations, g)
    case None => Ok(NoStation)
    case Some(s) =>
      match GetFrontUserId(st, s)
      case Err(e) => Err(e)
      case Ok(None) => Ok(NoParticipants)
      case Ok(Some(u)) => Ok(FrontUser(u))
  }

  const NoStationText := "Error, unable to find station"
  const NoParticipantsText := "There are no participants in the queue."
  const FrontUserPrefix := "Username of participant at front of queue: \n"

  /** `frontText` as the text it returns, with `username` standing for the messenger's
      username lookup. The three outcomes give three texts that cannot be confused. */
  function FrontTextMessage(st: State, g: GroupId, username: UserId -> string): (r: Result<string>)
    ensures r.Err? <==> FrontText(st, g).Err?
    ensures r == Ok(NoStationText) <==> FrontText(st, g) == Ok(NoStation)
    ensures r == Ok(NoParticipantsText) <==> FrontText(st, g) == Ok(NoParticipants)
    ensures FrontText(st, g).Ok? && FrontText(st, g).value.FrontUser? ==>
      r == Ok(FrontUserPrefix + username(FrontText(st, g).value.user))
  {
    match FrontText(st, g)
    case Err(e) => Err(e)
    case Ok(NoStation) => Ok(NoStationText)
    case Ok(NoParticipants) => Ok(NoParticipantsText)
    case Ok(FrontUser(u)) =>
      var t := FrontUserPrefix + username(u);
      assert |t| > |NoStationText| && |t| > |NoParticipantsText|;
      Ok(t)
  }

  /** With increasing queue numbers, the user reported for a non-empty station is the one
      who joined it earliest. */
  lemma FrontTextIsOldest(st: State, g: GroupId)
    requires TablesValid(st) && Registry.GetAdminStationID(st.stations, g).Some?
    requires Registry.GetAdminStationID(st.stations, g).value in st.tables
    requires st.tables[Registry.GetAdminStationID(st.stations, g).value].entries != []
    ensures FrontText(st, g)
      == Ok(FrontUser(st.tables[Registry.GetAdminStationID(st.stations, g).value].entries[0].user))
  {
    var s := Registry.GetAdminStationID(st.stations, g).value;
    FrontOfIncreasingIsFirst(st.tables[s].entries);
  }

  /** `getStationUserHandles`, with user ids in place of handles: an empty station gives []. */
  function GetStationUserHandles(st: State, s: StationId): (r: Result<seq<UserId>>)
    ensures r.Err? <==> s !in st.tables
    ensures r.Ok? ==> |r.value| == |st.tables[s].entries| && ListedInOrder(st.tables[s].entries, r.value)
  {
    match GetAllUserId(st, s)
    case Err(e) => Err(e)
    case Ok(None) =>
      assert Users(OrderByNumber([])) == [];
      Ok([])
    case Ok(Some(us)) => Ok(us)
  }

  /** A station's name as string conversion renders it — the object key in
      `getAllParticipants` and the heading of its listing block: its trimmed name, or
      `"null"` when the name lookup found nothing. */
  function NameKey(st: State, s: StationId): string {
    match Registry.GetStationName(st.stations, s)
    case Some(n) => n
    case None => "null"
  }

  ghost predicate AllTabled(st: State, ids: seq<StationId>) {
    forall i :: 0 <= i < |ids| ==> ids[i] in st.tables
  }

  /** The stations listed are the registered ones: the list is empty exactly when the
      registry is, and every listed station has a table exactly when every registered one has. */
  lemma StationsTabled(st: State)
    ensures AllTabled(st, Registry.GetStationIDs(st.stations)) <==> forall s :: s in st.stations ==> s in st.tables
    ensures Registry.GetStationIDs(st.stations) == [] <==> st.stations == map[]
  {
    var ids := Registry.GetStationIDs(st.stations);
    if AllTabled(st, ids) {
      forall s | s in st.stations ensures s in st.tables {
        var i :| 0 <= i < |ids| && ids[i] == s;
      }
    }
    if ids == [] {
      assert forall s :: s !in st.stations;
    }
  }

  type Listing = map<string, seq<UserId>>

  /** The keys of `pairs`. */
  function KeysOf(pairs: seq<(string, seq<UserId>)>): set<string> {
    if pairs == [] then {} else {pairs[0].0} + KeysOf(pairs[1..])
  }

  lemma {:induction false} KeysOfMembers(pairs: seq<(string, seq<UserId>)>, k: string)
    ensures k in KeysOf(pairs) <==> exists i :: 0 <= i < |pairs| && pairs[i].0 == k
  {
    if pairs != [] {
      var tail := pairs[1..];
      KeysOfMembers(tail, k);
      if k in KeysOf(tail) {
        var i :| 0 <= i < |tail| && tail[i].0 == k;
        assert pairs[i + 1] == tail[i];
      }
      if exists i :: 0 <= i < |pairs| && pairs[i].0 == k {
        var i :| 0 <= i < |pairs| && pairs[i].0 == k;
        if i > 0 {
          assert tail[i - 1] == pairs[i];
        }
      }
    }
  }

  /** Writes the pairs into `acc` one after another, as the loop assigns object properties. */
  function PutAll(pairs: seq<(string, seq<UserId>)>, acc: Listing): (r: Listing)
    ensures r.Keys == acc.Keys + KeysOf(pairs)
  {
    if pairs == [] then acc else PutAll(pairs[1..], acc[pairs[0].0 := pairs[0].1])
  }

  /** A key no pair writes keeps its value. */
  lemma {:induction false} PutAllKeeps(pairs: seq<(string, seq<UserId>)>, acc: Listing, k: string)
    requires k in acc && k !in KeysOf(pairs)
    ensures PutAll(pairs, acc)[k] == acc[k]
  {
    if pairs != [] {
      PutAllKeeps(pairs[1..], acc[pairs[0].0 := pairs[0].1], k);
    }
  }

  /** Pair `i` is the last one with its key. */
  ghost predicate LastWithKey(pairs: seq<(string, seq<UserId>)>, i: int) {
    0 <= i < |pairs| && forall j :: i < j < |pairs| ==> pairs[j].0 != pairs[i].0
  }

  /** The last pair written under a key is the value the key ends with. */
  lemma {:induction false} PutAllLast(pairs: seq<(string, seq<UserId>)>, acc: Listing, i: int)
    requires LastWithKey(pairs, i)
    ensures pairs[i].0 in PutAll(pairs, acc)
    ensures PutAll(pairs, acc)[pairs[i].0] == pairs[i].1
  {
    var tail := pairs[1..];
    var acc' := acc[pairs[0].0 := pairs[0].1];
    if i == 0 {
      KeysOfMembers(tail, pairs[0].0);
      assert pairs[0].0 !in KeysOf(tail) by {
        forall j | 0 <= j < |tail| ensures tail[j].0 != pairs[0].0 {
          assert tail[j] == pairs[j + 1];
        }
      }
      PutAllKeeps(tail, acc', pairs[0].0);
    } else {
      assert LastWithKey(tail, i - 1) by {
        forall j | i - 1 < j < |tail| ensures tail[j].0 != tail[i - 1].0 {
          assert tail[j] == pairs[j + 1] && tail[i - 1] == pairs[i];
        }
      }
      PutAllLast(tail, acc', i - 1);
    }
  }

  /** The first station of `ids` whose table is missing: the loop rejects when it awaits
      that station's users. */
  function FirstUntabled(st: State, ids: seq<StationId>): (r: Option<StationId>)
    ensures r.None? <==> AllTabled(st, ids)
    ensures r.Some? ==> r.value !in st.tables && r.value in ids
  {
    if ids == [] then None
    else
      assert AllTabled(st, ids) <==> ids[0] in st.tables && AllTabled(st, ids[1..]) by {
        assert forall i :: 1 <= i < |ids| ==> ids[1..][i - 1] == ids[i];
      }
      if ids[0] !in st.tables then Some(ids[0]) else FirstUntabled(st, ids[1..])
  }

  /** What one station writes: its key and its users in queue order. */
  function PairOf(st: State, s: StationId): (string, seq<UserId>)
    requires s in st.tables
  {
    (NameKey(st, s), GetStationUserHandles(st, s).value)
  }

  /** What the stations `ids` write, in loop order. */
  function StationPairs(st: State, ids: seq<StationId>): (r: seq<(string, seq<UserId>)>)
    requires AllTabled(st, ids)
    ensures |r| == |ids|
    ensures forall i :: 0 <= i < |ids| ==> r[i] == PairOf(st, ids[i])
  {
    seq(|ids|, i requires 0 <= i < |ids| => PairOf(st, ids[i]))
  }

  /** `getAllParticipants`, with user ids in place of handles: the stations are visited in
      ascending id order and each writes its users under its trimmed name, so a station
      sharing its name with a later one is overwritten. */
  function GetAllParticipants(st: State): (r: Result<Listing>)
    ensures r.Ok? <==> forall s :: s in st.stations ==> s in st.tables
    ensures r.Err? ==> exists s :: s in st.stations && s !in st.tables && r.error == NoSuchTable(s)
  {
    var ids := Registry.GetStationIDs(st.stations);
    StationsTabled(st);
    match FirstUntabled(st, ids)
    case Some(s) => Err(NoSuchTable(s))
    case None => Ok(PutAll(StationPairs(st, ids), map[]))
  }

  /** A successful listing is the stations' pairs written into an empty object. */
  lemma AllParticipantsValue(st: State)
    requires forall s :: s in st.stations ==> s in st.tables
    ensures GetAllParticipants(st).Ok?
    ensures AllTabled(st, Registry.GetStationIDs(st.stations))
    ensures GetAllParticipants(st).value == PutAll(StationPairs(st, Registry.GetStationIDs(st.stations)), map[])
  {
    StationsTabled(st);
  }

  /** Every registered station's trimmed name is a key. */
  lemma AllParticipantsHasStation(st: State, s: StationId)
    requires forall s' :: s' in st.stations ==> s' in st.tables
    requires s in st.stations
    ensures GetAllParticipants(st).Ok?
    ensures NameKey(st, s) in GetAllParticipants(st).value
  {
    var ids := Registry.GetStationIDs(st.stations);
    AllParticipantsValue(st);
    var pairs := StationPairs(st, ids);
    var i :| 0 <= i < |ids| && ids[i] == s;
    assert pairs[i].0 == NameKey(st, s);
    KeysOfMembers(pairs, NameKey(st, s));
  }

  /** Every key is the trimmed name of a registered station. */
  lemma AllParticipantsOnlyStations(st: State, k: string)
    requires forall s :: s in st.stations ==> s in st.tables
    requires k in GetAllParticipants(st).value
    ensures exists s :: s in st.stations && NameKey(st, s) == k
  {
    var ids := Registry.GetStationIDs(st.stations);
    AllParticipantsValue(st);
    var i := PairKeyIndex(st, ids, k);
    assert ids[i] in st.stations;
  }

  /** A key written by the pairs of `ids` comes from one of those stations. */
  lemma PairKeyIndex(st: State, ids: seq<StationId>, k: string) returns (i: nat)
    requires AllTabled(st, ids)
    requires k in PutAll(StationPairs(st, ids), map[])
    ensures i < |ids| && NameKey(st, ids[i]) == k
  {
    var pairs := StationPairs(st, ids);
    KeysOfMembers(pairs, k);
    i :| 0 <= i < |pairs| && pairs[i].0 == k;
  }

  /** Along any list of stations, one whose key no later station shares keeps its users. */
  lemma PairsLastWins(st: State, ids: seq<StationId>, i: int)
    requires AllTabled(st, ids) && 0 <= i < |ids|
    requires forall j :: i < j < |ids| ==> NameKey(st, ids[j]) != NameKey(st, ids[i])
    ensures NameKey(st, ids[i]) in PutAll(StationPairs(st, ids), map[])
    ensures PutAll(StationPairs(st, ids), map[])[NameKey(st, ids[i])] == GetStationUserHandles(st, ids[i]).value
  {
    var pairs := StationPairs(st, ids);
    assert LastWithKey(pairs, i);
    PutAllLast(pairs, map[], i);
  }

  /** In an ascending list of registered stations, a station whose name no larger
      registered id shares has a key no later entry repeats. */
  lemma LaterKeysDiffer(st: State, ids: seq<StationId>, i: int)
    requires Registry.StrictlyAscending(ids) && 0 <= i < |ids|
    requires forall k :: 0 <= k < |ids| ==> ids[k] in st.stations
    requires forall s' :: s' in st.stations && ids[i] < s' ==> NameKey(st, s') != NameKey(st, ids[i])
    ensures forall j :: i < j < |ids| ==> NameKey(st, ids[j]) != NameKey(st, ids[i])
  {
    forall j | i < j < |ids| ensures NameKey(st, ids[j]) != NameKey(st, ids[i]) {
      assert ids[i] < ids[j] && ids[j] in st.stations;
    }
  }

  /** A station whose name no larger id shares maps to its users in queue order. */
  lemma AllParticipantsLastWins(st: State, s: StationId)
    requires forall s' :: s' in st.stations ==> s' in st.tables
    requires s in st.stations
    requires forall s' :: s' in st.stations && s < s' ==> NameKey(st, s') != NameKey(st, s)
    ensures NameKey(st, s) in GetAllParticipants(st).value
    ensures GetAllParticipants(st).value[NameKey(st, s)] == GetStationUserHandles(st, s).value
  {
    var ids := Registry.GetStationIDs(st.stations);
    var i :| 0 <= i < |ids| && ids[i] == s;
    LaterKeysDiffer(st, ids, i);
    AllParticipantsValue(st);
    PairsLastWins(st, ids, i);
  }

  // ----- authorisation -----

  /** `isSuperuser`: membership in the configured superuser list. */
  function IsSuperuser(cfg: Config, c: ChatId): (r: bool)
    ensures r <==> exists i :: 0 <= i < |cfg.superusers| && cfg.superusers[i] == c
  {
    c in cfg.superusers
  }

  /** `isAdmin`: membership in the admin list, or being a superuser. */
  function IsAdmin(cfg: Config, c: ChatId): (r: bool)
    ensures r <==> (exists i :: 0 <= i < |cfg.admins| && cfg.admins[i] == c) || IsSuperuser(cfg, c)
  {
    c in cfg.admins || IsSuperuser(cfg, c)
  }

  lemma SuperuserIsAdmin(cfg: Config, c: ChatId)
    requires IsSuperuser(cfg, c)
    ensures IsAdmin(cfg, c)
  {
  }
}

=== FILE: registry.dfy ===
/** The station registry `master.stations`, keyed by `stationID`. */
module Registry {
  import opened Types
  import opened Text

  datatype Station = Station(
    name: string,
    timeEach: int,
    frontMessage: string,
    groupID: GroupId,
    maxQueueLength: int)

  type Stations = map<StationId, Station>

  ghost predicate StrictlyAscending(ids: seq<int>) {
    forall i, j :: 0 <= i < j < |ids| ==> ids[i] < ids[j]
  }

  lemma EmptyOrHasMember(s: set<int>)
    ensures s == {} || exists y :: y in s
  {
    if !exists y :: y in s {
      assert s == {};
    }
  }

  predicate IsMin(m: int, s: set<int>) {
    m in s && forall x :: x in s ==> m <= x
  }

  lemma {:induction false} MinExists(s: set<int>)
    requires s != {}
    ensures exists m :: IsMin(m, s)
    decreases |s|
  {
    EmptyOrHasMember(s);
    var y :| y in s;
    var rest := s - {y};
    if rest == {} {
      assert s == {y};
      assert IsMin(y, s);
    } else {
      MinExists(rest);
      var m :| IsMin(m, rest);
      var least := if y < m then y else m;
      assert IsMin(least, s) by {
        forall x | x in s ensures least <= x {
          if x != y {
            assert x in rest;
          }
        }
      }
    }
  }

  function SetMin(s: set<int>): (m: int)
    requires s != {}
    ensures m in s && forall x :: x in s ==> m <= x
  {
    MinExists(s);
    var m :| IsMin(m, s);
    m
  }

  /** The members of `s` in ascending order. */
  function SortedIds(s: set<int>): (r: seq<int>)
    ensures StrictlyAscending(r)
    ensures forall x :: x in r <==> x in s
    ensures |r| == |s|
    decreases |s|
  {
    if s == {} then []
    else
      var m := SetMin(s);
      var rest := SortedIds(s - {m});
      assert forall x :: x in rest ==> m < x;
      [m] + rest
  }

  /** `select "stationID" from master.stations order by "stationID"`. */
  function GetStationIDs(reg: Stations): (r: seq<StationId>)
    ensures StrictlyAscending(r)
    ensures forall id :: id in r <==> id in reg
    ensures forall i :: 0 <= i < |r| ==> r[i] in reg
    ensures |r| == |reg|
  {
    var r := SortedIds(reg.Keys);
    assert forall i :: 0 <= i < |r| ==> r[i] in r;
    r
  }

  /** `select name ... where "stationID" = $1`, trimmed; null for an unknown station. The
      name read is the stored name with all white space cut from both ends: a slice of it
      with only white space around it that neither starts nor ends with white space. */
  function GetStationName(reg: Stations, id: StationId): (r: Option<string>)
    ensures r.Some? <==> id in reg
    ensures r.Some? ==> exists i :: TrimmedAt(reg[id].name, r.value, i)
    ensures r.Some? ==> SpaceFreeEnds(r.value)
  {
    if id in reg then
      var name := Trim(reg[id].name);
      assert exists i :: TrimmedAt(reg[id].name, name, i);
      Some(name)
    else None
  }

  /** The name read is THE trimmed stored name: any slice of the stored name with only
      white space around it and none at its ends is what the lookup returns. */
  lemma GetStationNameIsTrimmed(reg: Stations, id: StationId, name: string, i: int)
    requires id in reg && TrimmedAt(reg[id].name, name, i) && SpaceFreeEnds(name)
    ensures GetStationName(reg, id) == Some(name)
  {
    var r := GetStationName(reg, id).value;
    var j :| TrimmedAt(reg[id].name, r, j);
    TrimmedUnique(reg[id].name, r, j, name, i);
  }

  /** `getTimeEach`: the station's service time, null for an unknown station. */
  function GetTimeEach(reg: Stations, id: StationId): (r: Option<int>)
    ensures r.Some? <==> id in reg
    ensures r.Some? ==> r.value == reg[id].timeEach
  {
    if id in reg then Some(reg[id].timeEach) else None
  }

  /** `getFrontMessage`: the text sent to the user at the front, null for an unknown station. */
  function GetFrontMessage(reg: Stations, id: StationId): (r: Option<string>)
    ensures r.Some? <==> id in reg
    ensures r.Some? ==> r.value == reg[id].frontMessage
  {
    if id in reg then Some(reg[id].frontMessage) else None
  }

  /** `getGroupId`: the admin group of the station, null for an unknown station. */
  function GetGroupId(reg: Stations, id: StationId): (r: Option<GroupId>)
    ensures r.Some? <==> id in reg
    ensures r.Some? ==> r.value == reg[id].groupID
  {
    if id in reg then Some(reg[id].groupID) else None
  }

  /** `select "stationID" ... where "groupID" = $1`, first row. The query has no
      `order by`, so any matching station may come back; this model returns the
      smallest one, and the contract promises no more than "some matching station". */
  function GetAdminStationID(reg: Stations, g: GroupId): (r: Option<StationId>)
    ensures r.None? <==> forall id :: id in reg ==> reg[id].groupID != g
    ensures r.Some? ==> r.value in reg && reg[r.value].groupID == g
  {
    var matching := set id | id in reg && reg[id].groupID == g;
    if matching == {} then
      assert forall id :: id in reg ==> id !in matching;
      None
    else Some(SetMin(matching))
  }

  /** The two group lookups agree: the station found for a group has that group, and a
      group that some station has always finds a station. */
  lemma AdminStationOfGroup(reg: Stations, g: GroupId, id: StationId)
    ensures GetAdminStationID(reg, g).Some? ==>
      GetGroupId(reg, GetAdminStationID(reg, g).value) == Some(g)
    ensures GetGroupId(reg, id) == Some(g) ==> GetAdminStationID(reg, g).Some?
  {
    if GetGroupId(reg, id) == Some(g) {
      assert reg[id].groupID == g;
    }
  }

  /** `update master.stations set "maxQueueLength" = $2 where "stationID" = $1`. */
  function SetMax(reg: Stations, id: StationId, n: int): (r: Stations)
    ensures r.Keys == reg.Keys
    ensures id in reg ==> r[id] == reg[id].(maxQueueLength := n)
    ensures forall other :: other in reg && other != id ==> r[other] == reg[other]
  {
    if id in reg then reg[id := reg[id].(maxQueueLength := n)] else reg
  }

  /** `update master.stations set "timeEach" = $2 where "stationID" = $1`. */
  function SetTimeEach(reg: Stations, id: StationId, n: int): (r: Stations)
    ensures r.Keys == reg.Keys
    ensures id in reg ==> r[id] == reg[id].(timeEach := n)
    ensures forall other :: other in reg && other != id ==> r[other] == reg[other]
  {
    if id in reg then reg[id := reg[id].(timeEach := n)] else reg
  }

  /** Setting the service time is seen by the next read and by no other station's read. */
  lemma SetTimeEachThenGet(reg: Stations, id: StationId, n: int, other: StationId)
    ensures GetTimeEach(SetTimeEach(reg, id, n), id) == if id in reg then Some(n) else None
    ensures other != id ==> GetTimeEach(SetTimeEach(reg, id, n), other) == GetTimeEach(reg, other)
  {
  }

  // ----- order by name -----

  /** Code-point lexicographic order on strings. */
  predicate LexLe(a: string, b: string) {
    a == [] || (b != [] && (a[0] < b[0] || (a[0] == b[0] && LexLe(a[1..], b[1..]))))
  }

  lemma {:induction false} LexLeTotal(a: string, b: string)
    ensures LexLe(a, b) || LexLe(b, a)
  {
    if a != [] && b != [] && a[0] == b[0] {
      LexLeTotal(a[1..], b[1..]);
    }
  }

  ghost predicate SortedByName(names: seq<string>) {
    forall i :: 0 <= i < |names| - 1 ==> LexLe(names[i], names[i + 1])
  }

  function InsertByName(x: string, names: seq<string>): (r: seq<string>)
    requires SortedByName(names)
    ensures SortedByName(r)
    ensures multiset(r) == multiset(names) + multiset{x}
    ensures r[0] == x || (names != [] && r[0] == names[0])
  {
    if names == [] || LexLe(x, names[0]) then [x] + names
    else
      LexLeTotal(x, names[0]);
      var rest := InsertByName(x, names[1..]);
      assert names == [names[0]] + names[1..];
      [names[0]] + rest
  }

  function SortByName(names: seq<string>): (r: seq<string>)
    ensures SortedByName(r)
    ensures multiset(r) == multiset(names)
  {
    if names == [] then []
    else
      assert names == [names[0]] + names[1..];
      InsertByName(names[0], SortByName(names[1..]))
  }

  /** The stored (untrimmed) names, in station-ID order. */
  function StoredNames(reg: Stations): (r: seq<string>)
    ensures |r| == |reg|
    ensures forall i :: 0 <= i < |r| ==> r[i] == reg[GetStationIDs(reg)[i]].name
  {
    var ids := GetStationIDs(reg);
    seq(|ids|, i requires 0 <= i < |ids| => reg[ids[i]].name)
  }

  /** Every station contributes its name, and nothing else appears. */
  lemma StoredNamesMembers(reg: Stations, x: string)
    ensures x in StoredNames(reg) <==> exists id :: id in reg && reg[id].name == x
  {
    var ids := GetStationIDs(reg);
    var r := StoredNames(reg);
    if exists id :: id in reg && reg[id].name == x {
      var id :| id in reg && reg[id].name == x;
      var k :| 0 <= k < |ids| && ids[k] == id;
      assert r[k] == x;
    }
    if x in r {
      var k :| 0 <= k < |r| && r[k] == x;
      assert ids[k] in reg;
    }
  }

  /** `listing` is `stored` put in name order, each name then trimmed. */
  ghost predicate NamesListing(stored: seq<string>, sorted: seq<string>, listing: seq<string>) {
    && SortedByName(sorted)
    && multiset(sorted) == multiset(stored)
    && |sorted| == |listing|
    && forall i :: 0 <= i < |listing| ==> listing[i] == Trim(sorted[i])
  }

  /** `select name from master.stations order by name`, each name trimmed: one
      name per station, ordered by the stored name. */
  function GetStationNames(reg: Stations): (r: seq<string>)
    ensures |r| == |reg|
    ensures exists sorted :: NamesListing(StoredNames(reg), sorted, r)
  {
    var sorted := SortByName(StoredNames(reg));
    assert |sorted| == |multiset(sorted)|;
    var r := seq(|sorted|, i requires 0 <= i < |sorted| => Trim(sorted[i]));
    assert NamesListing(StoredNames(reg), sorted, r);
    r
  }
}

=== FILE: station_table.dfy ===
/** One per-station table `stations."<id>"`: rows `(userID, queueNumber)`.

    The rows are kept in insertion order. `next` is the value the table's
    serial column hands out on the next insert; the table definition is not
    part of this model, so the serial is ASSUMED to be a per-table counter
    that increases by one per insert and is never rewound. */
module StationTable {
  import opened Types

  datatype Entry = Entry(user: UserId, number: nat)

  datatype Table = Table(entries: seq<Entry>, next: nat)

  /** Queue numbers strictly increase along the rows, and all lie below the counter. */
  ghost predicate Valid(t: Table) {
    Increasing(t.entries) && (forall i :: 0 <= i < |t.entries| ==> t.entries[i].number < t.next)
  }

  ghost predicate Increasing(es: seq<Entry>) {
    forall i, j :: 0 <= i < j < |es| ==> es[i].number < es[j].number
  }

  /** The head of an increasing sequence is below every later row, and the tail is increasing. */
  lemma IncreasingTail(es: seq<Entry>)
    requires Increasing(es) && es != []
    ensures Increasing(es[1..])
    ensures forall e :: e in es[1..] ==> es[0].number < e.number
  {
    forall e | e in es[1..] ensures es[0].number < e.number {
      var j :| 0 <= j < |es[1..]| && es[1..][j] == e;
      assert es[j + 1] == e;
    }
  }

  /** `insert into stations."<id>" ("userID") values ($1) returning "queueNumber"`. */
  function Insert(t: Table, u: UserId): (r: (Table, nat))
    ensures |r.0.entries| == |t.entries| + 1 && r.0.entries[|t.entries|] == Entry(u, r.1)
    ensures r.0.entries[..|t.entries|] == t.entries
    ensures Valid(t) ==> Valid(r.0)
    ensures Valid(t) ==> forall e :: e in t.entries ==> e.number < r.1
  {
    (Table(t.entries + [Entry(u, t.next)], t.next + 1), t.next)
  }

  /** The rows of user `u`, in table order. */
  function EntriesOf(es: seq<Entry>, u: UserId): seq<Entry> {
    if es == [] then []
    else if es[0].user == u then [es[0]] + EntriesOf(es[1..], u)
    else EntriesOf(es[1..], u)
  }

  /** `delete from stations."<id>" where "userID" = $1`: drops every row of `u`. */
  function Remove(es: seq<Entry>, u: UserId): (r: seq<Entry>)
    ensures forall e :: e in r ==> e in es && e.user != u
    ensures |r| <= |es|
  {
    if es == [] then []
    else if es[0].user == u then Remove(es[1..], u)
    else [es[0]] + Remove(es[1..], u)
  }

  /** Every row of another user survives the removal. */
  lemma {:induction false} RemoveKeeps(es: seq<Entry>, u: UserId, e: Entry)
    requires e in es && e.user != u
    ensures e in Remove(es, u)
  {
    if es[0] != e {
      RemoveKeeps(es[1..], u, e);
    }
  }

  function DeleteUser(t: Table, u: UserId): (r: Table)
    ensures forall e :: e in r.entries ==> e in t.entries && e.user != u
    ensures r.next == t.next
  {
    t.(entries := Remove(t.entries, u))
  }

  /** Removing `u` leaves the rows of every other user exactly as they were, in order. */
  lemma {:induction false} RemoveKeepsOthers(es: seq<Entry>, u: UserId, v: UserId)
    requires u != v
    ensures EntriesOf(Remove(es, u), v) == EntriesOf(es, v)
    ensures EntriesOf(Remove(es, u), u) == []
  {
    if es != [] {
      RemoveKeepsOthers(es[1..], u, v);
      if es[0].user != u {
        assert ([es[0]] + Remove(es[1..], u))[1..] == Remove(es[1..], u);
      }
    }
  }

  /** A row below every row of an increasing sequence can be put in front of it. */
  lemma ConsIncreasing(x: Entry, tail: seq<Entry>)
    requires Increasing(tail)
    requires forall e :: e in tail ==> x.number < e.number
    ensures Increasing([x] + tail)
  {
    var r := [x] + tail;
    forall i, j | 0 <= i < j < |r| ensures r[i].number < r[j].number {
      assert r[j] == tail[j - 1];
      if i > 0 {
        assert r[i] == tail[i - 1];
      }
    }
  }

  /** Removal keeps the rows in their relative order, so the numbers still increase. */
  lemma {:induction false} RemovePreservesIncreasing(es: seq<Entry>, u: UserId)
    requires Increasing(es)
    ensures Increasing(Remove(es, u))
  {
    if es != [] {
      IncreasingTail(es);
      RemovePreservesIncreasing(es[1..], u);
      if es[0].user != u {
        var tail := Remove(es[1..], u);
        assert Remove(es, u) == [es[0]] + tail;
        ConsIncreasing(es[0], tail);
      }
    }
  }

  lemma RemovePreservesValid(t: Table, u: UserId)
    requires Valid(t)
    ensures Valid(DeleteUser(t, u))
  {
    RemovePreservesIncreasing(t.entries, u);
    var r := DeleteUser(t, u).entries;
    forall i | 0 <= i < |r| ensures r[i].number < t.next {
      assert r[i] in t.entries;
    }
  }

  /** `select count(*) ... where "queueNumber" < $1`. */
  function CountBelow(es: seq<Entry>, n: int): (r: nat)
    ensures r <= |es|
  {
    if es == [] then 0
    else (if es[0].number < n then 1 else 0) + CountBelow(es[1..], n)
  }

  /** No row counts when the bound lies at or below every number. */
  lemma {:induction false} CountBelowNone(es: seq<Entry>, n: int)
    requires forall e :: e in es ==> n <= e.number
    ensures CountBelow(es, n) == 0
  {
    if es != [] {
      assert es[0] in es;
      assert forall e :: e in es[1..] ==> e in es;
      CountBelowNone(es[1..], n);
    }
  }

  /** In an increasing sequence, the rows with a smaller number than the `k`-th row are exactly the `k` rows before it. */
  lemma {:induction false} CountBelowIsPosition(es: seq<Entry>, k: nat)
    requires Increasing(es)
    requires k < |es|
    ensures CountBelow(es, es[k].number) == k
  {
    if k == 0 {
      IncreasingTail(es);
      CountBelowNone(es[1..], es[0].number);
    } else {
      IncreasingTail(es);
      CountBelowIsPosition(es[1..], k - 1);
      assert es[1..][k - 1] == es[k];
    }
  }

  /** Index of a row with the least queue number (the first such row). */
  function MinIndex(es: seq<Entry>): (r: nat)
    requires es != []
    ensures r < |es|
    ensures forall j :: 0 <= j < |es| ==> es[r].number <= es[j].number
  {
    if |es| == 1 then 0
    else
      var m := 1 + MinIndex(es[1..]);
      assert es[1..][m - 1] == es[m];
      if es[0].number <= es[m].number then 0 else m
  }

  /** `select "userID" ... order by "queueNumber" limit 1`. */
  function Front(es: seq<Entry>): (r: Option<UserId>)
    ensures r == None <==> es == []
    ensures r.Some? ==> exists e :: e in es && e.user == r.value && forall f :: f in es ==> e.number <= f.number
  {
    if es == [] then None
    else
      var i := MinIndex(es);
      assert es[i] in es;
      Some(es[i].user)
  }

  /** With increasing numbers the front row is the oldest row. */
  lemma FrontOfIncreasingIsFirst(es: seq<Entry>)
    requires Increasing(es) && es != []
    ensures Front(es) == Some(es[0].user)
  {
    var i := MinIndex(es);
  }

  // ----- ORDER BY "queueNumber" -----

  ghost predicate SortedByNumber(es: seq<Entry>) {
    forall i, j :: 0 <= i < j < |es| ==> es[i].number <= es[j].number
  }

  /** Place `e` before the first row whose number is not smaller. */
  function InsertByNumber(e: Entry, es: seq<Entry>): (r: seq<Entry>)
    requires SortedByNumber(es)
    ensures SortedByNumber(r)
    ensures multiset(r) == multiset(es) + multiset{e}
  {
    if es == [] then [e]
    else if e.number <= es[0].number then [e] + es
    else
      var rest := InsertByNumber(e, es[1..]);
      var r := [es[0]] + rest;
      assert es == [es[0]] + es[1..];
      assert SortedByNumber(r) by {
        forall i, j | 0 <= i < j < |r| ensures r[i].number <= r[j].number {
          if i == 0 {
            assert r[j] in multiset(rest);
            assert r[j] == e || r[j] in multiset(es[1..]);
          }
        }
      }
      r
  }

  /** The rows as the database returns them under `order by "queueNumber"`. */
  function OrderByNumber(es: seq<Entry>): (r: seq<Entry>)
    ensures SortedByNumber(r)
    ensures multiset(r) == multiset(es)
  {
    if es == [] then []
    else
      assert es == [es[0]] + es[1..];
      InsertByNumber(es[0], OrderByNumber(es[1..]))
  }

  /** Rows with increasing numbers are already in queue-number order. */
  lemma {:induction false} OrderByNumberOfIncreasing(es: seq<Entry>)
    requires Increasing(es)
    ensures OrderByNumber(es) == es
  {
    if es != [] {
      var tail := es[1..];
      IncreasingTail(es);
      OrderByNumberOfIncreasing(tail);
      assert OrderByNumber(es) == InsertByNumber(es[0], tail);
      if tail != [] {
        assert tail[0] in tail;
        assert es[0].number <= tail[0].number;
      }
      assert InsertByNumber(es[0], tail) == [es[0]] + tail;
      assert [es[0]] + tail == es;
    }
  }

  function Users(es: seq<Entry>): (r: seq<UserId>)
    ensures |r| == |es|
    ensures forall i :: 0 <= i < |es| ==> r[i] == es[i].user
  {
    seq(|es|, i requires 0 <= i < |es| => es[i].user)
  }
}

=== FILE: text.dfy ===
/** The JavaScript string behaviour the queue engine relies on: `String.prototype.trim`
    on station names, `parseInt` on the stored `maxLength` setting, and the
    decimal rendering of a number when it is concatenated onto a string. */
module Text {

  /** A JavaScript number as far as this model needs one: an integer or NaN. */
  datatype JsNumber = Num(n: int) | NaN

  /** White space removed by `trim` and skipped by `parseInt`: the ECMAScript WhiteSpace
      characters (tab, vertical tab, form feed, space, no-break space, the byte-order mark
      and every space separator of Unicode category Zs) and the LineTerminator characters. */
  predicate IsSpace(c: char) {
    || c == '\t' || c == '\U{B}' || c == '\U{C}' || c == ' ' || c == '\U{A0}' || c == '\U{FEFF}'
    || c == '\U{1680}' || ('\U{2000}' <= c <= '\U{200A}') || c == '\U{202F}' || c == '\U{205F}'
    || c == '\U{3000}'
    || c == '\n' || c == '\r' || c == '\U{2028}' || c == '\U{2029}'
  }

  function TrimStart(s: string): (r: string)
    ensures |r| <= |s| && r == s[|s| - |r|..]
    ensures r == [] || !IsSpace(r[0])
    ensures forall i :: 0 <= i < |s| - |r| ==> IsSpace(s[i])
  {
    if s != [] && IsSpace(s[0]) then TrimStart(s[1..]) else s
  }

  function TrimEnd(s: string): (r: string)
    ensures |r| <= |s| && r == s[..|r|]
    ensures r == [] || !IsSpace(r[|r| - 1])
    ensures forall i :: |r| <= i < |s| ==> IsSpace(s[i])
  {
    if s != [] && IsSpace(s[|s| - 1]) then TrimEnd(s[..|s| - 1]) else s
  }

  /** `r` is the slice of `s` at offset `i`, and only white space lies around it. */
  ghost predicate TrimmedAt(s: string, r: string, i: int) {
    && 0 <= i <= |s| - |r|
    && r == s[i..i + |r|]
    && (forall k :: 0 <= k < i ==> IsSpace(s[k]))
    && (forall k :: i + |r| <= k < |s| ==> IsSpace(s[k]))
  }

  /** `s.trim()`: the slice of `s` between its leading and trailing white space. */
  function Trim(s: string): (r: string)
    ensures SpaceFreeEnds(r)
    ensures exists i :: TrimmedAt(s, r, i)
  {
    var t := TrimStart(s);
    var r := TrimEnd(t);
    TrimmedAtBothEnds(s, t, r);
    r
  }

  /** Cutting white space from the front of `s` and then from the back of the rest leaves
      a slice of `s` with only white space around it. */
  lemma TrimmedAtBothEnds(s: string, t: string, r: string)
    requires |t| <= |s| && t == s[|s| - |t|..]
    requires forall k :: 0 <= k < |s| - |t| ==> IsSpace(s[k])
    requires |r| <= |t| && r == t[..|r|]
    requires forall k :: |r| <= k < |t| ==> IsSpace(t[k])
    ensures TrimmedAt(s, r, |s| - |t|)
  {
    var i := |s| - |t|;
    forall k | i + |r| <= k < |s| ensures IsSpace(s[k]) {
      assert s[k] == t[k - i];
    }
  }

  /** No white space at either end of `r` (or `r` is empty). */
  predicate SpaceFreeEnds(r: string) {
    r == [] || (!IsSpace(r[0]) && !IsSpace(r[|r| - 1]))
  }

  /** A string has one trimmed form: two slices with only white space around them and
      none at their ends are the same string. */
  lemma TrimmedUnique(s: string, r1: string, i1: int, r2: string, i2: int)
    requires TrimmedAt(s, r1, i1) && SpaceFreeEnds(r1)
    requires TrimmedAt(s, r2, i2) && SpaceFreeEnds(r2)
    ensures r1 == r2
  {
    if r1 != [] {
      assert s[i1] == r1[0] && s[i1 + |r1| - 1] == r1[|r1| - 1];
    }
    if r2 != [] {
      assert s[i2] == r2[0] && s[i2 + |r2| - 1] == r2[|r2| - 1];
    }
  }

  // ----- parseInt -----

  /** Value of `c` as a digit in base 36, or 36 when it is no digit at all. */
  function DigitValue(c: char): (r: nat)
    ensures r <= 36
    ensures '0' <= c <= '9' ==> r == c as int - '0' as int
  {
    if '0' <= c <= '9' then c as int - '0' as int
    else if 'a' <= c <= 'z' then c as int - 'a' as int + 10
    else if 'A' <= c <= 'Z' then c as int - 'A' as int + 10
    else 36
  }

  /** The longest prefix of `s` made of digits valid in `radix`. */
  function DigitPrefix(s: string, radix: nat): (r: string)
    ensures |r| <= |s| && r == s[..|r|]
    ensures forall i :: 0 <= i < |r| ==> DigitValue(r[i]) < radix
    ensures |r| < |s| ==> radix <= DigitValue(s[|r|])
  {
    if s != [] && DigitValue(s[0]) < radix then [s[0]] + DigitPrefix(s[1..], radix) else []
  }

  /** The number the digit string `p` denotes in base `radix`. */
  function DigitsValue(p: string, radix: nat): nat
    requires forall i :: 0 <= i < |p| ==> DigitValue(p[i]) < radix
  {
    if p == [] then 0
    else
      var init := p[..|p| - 1];
      assert forall i :: 0 <= i < |init| ==> init[i] == p[i];
      AppendDigit(DigitsValue(init, radix), radix, DigitValue(p[|p| - 1]))
  }

  /** The value of a digit string after one more digit `d` is written to its right. */
  function AppendDigit(v: nat, radix: nat, d: nat): nat {
    v * radix + d
  }

  /** `parseInt(s)` with no radix argument: leading white space, an optional sign, an
      optional `0x` prefix selecting base 16, then the longest run of digits; NaN when
      that run is empty. */
  function ParseInt(s: string): (r: JsNumber)
    ensures s != [] && IsSpace(s[0]) ==> r == ParseInt(s[1..])
    ensures s != [] && !IsSpace(s[0]) && s[0] != '-' && s[0] != '+' && DigitValue(s[0]) >= 10 ==> r == NaN
    ensures s == [] ==> r == NaN
  {
    ParseSigned(TrimStart(s))
  }

  function ParseSigned(t: string): JsNumber {
    if t != [] && t[0] == '-' then Negate(ParseUnsigned(t[1..]))
    else if t != [] && t[0] == '+' then ParseUnsigned(t[1..])
    else ParseUnsigned(t)
  }

  function Negate(x: JsNumber): JsNumber {
    match x
    case NaN => NaN
    case Num(i) => Num(-i)
  }

  function ParseUnsigned(body: string): JsNumber {
    var hex := |body| >= 2 && body[0] == '0' && (body[1] == 'x' || body[1] == 'X');
    var radix := if hex then 16 else 10;
    var digits := DigitPrefix(if hex then body[2..] else body, radix);
    if digits == [] then NaN else Num(DigitsValue(digits, radix))
  }

  // ----- number to string -----

  function DigitChar(d: nat): (c: char)
    requires d < 10
    ensures DigitValue(c) == d
  {
    ['0', '1', '2', '3', '4', '5', '6', '7', '8', '9'][d]
  }

  /** Decimal digits of `n` with no leading zero, as `String(n)` writes an integer. */
  function NatToString(n: nat): (r: string)
    ensures r != []
    ensures forall i :: 0 <= i < |r| ==> '0' <= r[i] <= '9'
    ensures r[0] == '0' ==> n == 0
  {
    if n < 10 then [DigitChar(n)] else NatToString(n / 10) + [DigitChar(n % 10)]
  }

  function IntToString(i: int): string {
    if i < 0 then "-" + NatToString(-i) else NatToString(i)
  }

  /** How a number appears when it is concatenated onto a string. */
  function NumberToString(x: JsNumber): string {
    match x
    case NaN => "NaN"
    case Num(i) => IntToString(i)
  }

  lemma {:induction false} NatToStringValue(n: nat)
    ensures DigitsValue(NatToString(n), 10) == n
  {
    var r := NatToString(n);
    if n >= 10 {
      NatToStringValue(n / 10);
      assert r[..|r| - 1] == NatToString(n / 10);
    }
  }

  lemma {:induction false} DigitPrefixOfDigits(s: string, radix: nat)
    requires forall i :: 0 <= i < |s| ==> DigitValue(s[i]) < radix
    ensures DigitPrefix(s, radix) == s
  {
    if s != [] {
      DigitPrefixOfDigits(s[1..], radix);
    }
  }

  /** A decimal numeral without a leading zero reads back as the number it denotes. */
  lemma ParseUnsignedOfNatToString(n: nat)
    ensures ParseUnsigned(NatToString(n)) == Num(n)
  {
    var d := NatToString(n);
    assert !(|d| >= 2 && d[0] == '0');
    assert forall k :: 0 <= k < |d| ==> DigitValue(d[k]) < 10;
    DigitPrefixOfDigits(d, 10);
    NatToStringValue(n);
  }

  lemma TrimStartOfNonSpace(s: string)
    requires s != [] && !IsSpace(s[0])
    ensures TrimStart(s) == s
  {
  }

  lemma ParseSignedMinus(body: string)
    ensures ParseSigned("-" + body) == Negate(ParseUnsigned(body))
  {
    assert ("-" + body)[1..] == body;
  }

  lemma ParseIntOfNegative(i: int)
    requires i < 0
    ensures ParseInt(IntToString(i)) == Num(i)
  {
    var n: nat := -i;
    var body := NatToString(n);
    var s := "-" + body;
    assert IntToString(i) == s;
    TrimStartOfNonSpace(s);
    ParseSignedMinus(body);
    ParseUnsignedOfNatToString(n);
  }

  lemma ParseIntOfNat(i: int)
    requires i >= 0
    ensures ParseInt(IntToString(i)) == Num(i)
  {
    var s := NatToString(i);
    assert IntToString(i) == s;
    assert '0' <= s[0] <= '9';
    TrimStartOfNonSpace(s);
    ParseUnsignedOfNatToString(i);
  }

  /** `parseInt` reads back exactly the integer that `String` wrote. */
  lemma ParseIntOfIntToString(i: int)
    ensures ParseInt(IntToString(i)) == Num(i)
  {
    if i < 0 {
      ParseIntOfNegative(i);
    } else {
      ParseIntOfNat(i);
    }
  }

  /** A digit run stops at the first character that is no digit in `radix`. */
  lemma {:induction false} DigitPrefixStops(d: string, rest: string, radix: nat)
    requires forall i :: 0 <= i < |d| ==> DigitValue(d[i]) < radix
    requires rest == [] || DigitValue(rest[0]) >= radix
    ensures DigitPrefix(d + rest, radix) == d
  {
    if d != [] {
      assert (d + rest)[0] == d[0];
      assert (d + rest)[1..] == d[1..] + rest;
      DigitPrefixStops(d[1..], rest, radix);
    } else {
      assert d + rest == rest;
    }
  }

  /** A decimal numeral followed by text that does not continue it reads as the numeral's
      value. A lone `0` followed by `x` or `X` is the one exception: it starts a hexadecimal
      numeral instead. */
  lemma ParseIntOfNumeral(n: nat, rest: string)
    requires rest == [] || DigitValue(rest[0]) >= 10
    requires n == 0 ==> rest == [] || (rest[0] != 'x' && rest[0] != 'X')
    ensures ParseInt(NatToString(n) + rest) == Num(n)
  {
    var d := NatToString(n);
    var s := d + rest;
    assert s[0] == d[0] && '0' <= d[0] <= '9';
    TrimStartOfNonSpace(s);
    assert ParseInt(s) == ParseUnsigned(s);
    assert forall k :: 0 <= k < |d| ==> DigitValue(d[k]) < 10;
    assert !(|s| >= 2 && s[0] == '0' && (s[1] == 'x' || s[1] == 'X')) by {
      if |s| >= 2 && s[0] == '0' {
        assert n == 0 && |d| == 1;
        assert s[1] == rest[0];
      }
    }
    DigitPrefixStops(d, rest, 10);
    NatToStringValue(n);
    assert ParseUnsigned(s) == Num(DigitsValue(d, 10));
  }
}

=== FILE: types.dfy ===
/** Identifiers, optional values and the failures the queue engine can report.

    Every table read or write that the JavaScript code awaits either yields a
    value or rejects; a rejection is modelled as `Err` carrying one of the
    `Error` values below, and a SQL `null` result as `None`. */
module Types {

  type UserId = int
  type StationId = int
  type ChatId = int
  type GroupId = int
  type ListenerId = int

  datatype Option<+T> = None | Some(value: T)

  datatype Error =
    | NoSuchTable(station: StationId)      // the per-station table `stations."<id>"` does not exist
    | StationInsertFailed                  // "error inserting into station"
    | ParticipantInsertFailed              // "error inserting into participants"
    | VariableNotFound(key: string)        // "master variable <key> not found"
    | VariableAmbiguous(key: string)       // "master variable <key> matches multiple rows"
    | NoListenerRow(chat: ChatId)          // `res.rows[0]` is undefined in destroyListenerIds

  datatype Result<+T> = Ok(value: T) | Err(error: Error)

  /** Outcome of a statement pair that returns nothing on success and throws on failure. */
  datatype Outcome = Pass | Fail(error: Error)
}

=== FILE: variables.dfy ===
/** The settings table `master.variables`: rows `(key, value)`. Nothing in the schema
    that this model sees makes `key` unique, so the rows are a sequence in which a
    key may occur any number of times. */
module Variables {
  import opened Types
  import opened Text

  datatype VarRow = VarRow(key: string, value: string)

  const WaitTimeKey: string := "waitTime"
  const MaxLengthKey: string := "maxLength"

  /** The values of the rows with key `k`, in table order. */
  function ValuesOf(rows: seq<VarRow>, k: string): seq<string> {
    if rows == [] then []
    else if rows[0].key == k then [rows[0].value] + ValuesOf(rows[1..], k)
    else ValuesOf(rows[1..], k)
  }

  /** The rows' keys, in table order. */
  function KeyList(rows: seq<VarRow>): seq<string> {
    if rows == [] then [] else [rows[0].key] + KeyList(rows[1..])
  }

  /** Each row with key `k` contributes one value. */
  lemma {:induction false} ValuesOfCount(rows: seq<VarRow>, k: string)
    ensures |ValuesOf(rows, k)| == multiset(KeyList(rows))[k]
  {
    if rows != [] {
      ValuesOfCount(rows[1..], k);
    }
  }

  ghost predicate Absent(rows: seq<VarRow>, k: string) {
    forall i :: 0 <= i < |rows| ==> rows[i].key != k
  }

  ghost predicate Duplicated(rows: seq<VarRow>, k: string) {
    exists i, j :: 0 <= i < j < |rows| && rows[i].key == k && rows[j].key == k
  }

  /** Exactly one row has key `k`, and its value is `v`. */
  ghost predicate UniqueRow(rows: seq<VarRow>, k: string, v: string) {
    exists i :: 0 <= i < |rows| && rows[i] == VarRow(k, v)
      && forall j :: 0 <= j < |rows| && j != i ==> rows[j].key != k
  }

  lemma {:induction false} ValuesOfEmpty(rows: seq<VarRow>, k: string)
    ensures ValuesOf(rows, k) == [] <==> Absent(rows, k)
  {
    if rows != [] {
      ValuesOfEmpty(rows[1..], k);
      if Absent(rows, k) {
        assert Absent(rows[1..], k) by {
          forall i | 0 <= i < |rows[1..]| ensures rows[1..][i].key != k {
            assert rows[1..][i] == rows[i + 1];
          }
        }
      }
      if rows[0].key != k && Absent(rows[1..], k) {
        forall i | 0 <= i < |rows| ensures rows[i].key != k {
          if i > 0 {
            assert rows[i] == rows[1..][i - 1];
          }
        }
      }
    }
  }

  lemma {:induction false} ValuesOfMany(rows: seq<VarRow>, k: string)
    ensures |ValuesOf(rows, k)| >= 2 <==> Duplicated(rows, k)
  {
    if rows != [] {
      var tail := rows[1..];
      ValuesOfMany(tail, k);
      ValuesOfEmpty(tail, k);
      if |ValuesOf(rows, k)| >= 2 {
        if rows[0].key == k {
          assert !Absent(tail, k);
          var j :| 0 <= j < |tail| && tail[j].key == k;
          assert rows[j + 1] == tail[j];
        } else {
          var i, j :| 0 <= i < j < |tail| && tail[i].key == k && tail[j].key == k;
          assert rows[i + 1] == tail[i] && rows[j + 1] == tail[j];
        }
      }
      if Duplicated(rows, k) {
        var i, j :| 0 <= i < j < |rows| && rows[i].key == k && rows[j].key == k;
        assert rows[j] == tail[j - 1];
        if i == 0 {
          assert !Absent(tail, k);
        } else {
          assert rows[i] == tail[i - 1];
          assert Duplicated(tail, k);
        }
      }
    }
  }

  lemma {:induction false} ValuesOfOne(rows: seq<VarRow>, k: string, v: string)
    ensures ValuesOf(rows, k) == [v] <==> UniqueRow(rows, k, v)
  {
    if rows != [] {
      var tail := rows[1..];
      ValuesOfOne(tail, k, v);
      ValuesOfEmpty(tail, k);
      if ValuesOf(rows, k) == [v] {
        if rows[0].key == k {
          assert ValuesOf(rows, k) == [rows[0].value] + ValuesOf(tail, k);
          assert ValuesOf(rows, k)[0] == rows[0].value;
          assert |ValuesOf(tail, k)| == 0;
          forall j | 0 <= j < |rows| && j != 0 ensures rows[j].key != k {
            assert rows[j] == tail[j - 1];
          }
          assert rows[0] == VarRow(k, v);
          assert UniqueRow(rows, k, v);
        } else {
          var i :| 0 <= i < |tail| && tail[i] == VarRow(k, v)
            && forall j :: 0 <= j < |tail| && j != i ==> tail[j].key != k;
          assert rows[i + 1] == tail[i];
          forall j | 0 <= j < |rows| && j != i + 1 ensures rows[j].key != k {
            if j > 0 {
              assert rows[j] == tail[j - 1];
            }
          }
          assert UniqueRow(rows, k, v);
        }
      }
      if UniqueRow(rows, k, v) {
        var i :| 0 <= i < |rows| && rows[i] == VarRow(k, v)
          && forall j :: 0 <= j < |rows| && j != i ==> rows[j].key != k;
        if i == 0 {
          forall j | 0 <= j < |tail| ensures tail[j].key != k {
            assert tail[j] == rows[j + 1];
          }
          assert Absent(tail, k);
          assert ValuesOf(rows, k) == [rows[0].value] + ValuesOf(tail, k);
        } else {
          assert rows[0].key != k by {
            assert 0 != i;
          }
          assert tail[i - 1] == rows[i];
          forall j | 0 <= j < |tail| && j != i - 1 ensures tail[j].key != k {
            assert tail[j] == rows[j + 1];
          }
          assert UniqueRow(tail, k, v);
          assert ValuesOf(rows, k) == ValuesOf(tail, k);
        }
      }
    }
  }

  /** `getMasterVariable(key)`: fails when no row or more than one row has the key,
      otherwise yields the single row's value. */
  function GetMasterVariable(rows: seq<VarRow>, k: string): (r: Result<string>)
    ensures r == Err(VariableNotFound(k)) <==> Absent(rows, k)
    ensures r == Err(VariableAmbiguous(k)) <==> Duplicated(rows, k)
    ensures r.Ok? <==> exists v :: UniqueRow(rows, k, v)
    ensures r.Ok? ==> UniqueRow(rows, k, r.value)
  {
    var vs := ValuesOf(rows, k);
    ValuesOfEmpty(rows, k);
    ValuesOfMany(rows, k);
    if |vs| == 0 then Err(VariableNotFound(k))
    else if |vs| > 1 then Err(VariableAmbiguous(k))
    else
      ValuesOfOne(rows, k, vs[0]);
      assert forall v :: UniqueRow(rows, k, v) ==> v == vs[0] by {
        forall v | UniqueRow(rows, k, v) ensures v == vs[0] {
          ValuesOfOne(rows, k, v);
        }
      }
      Ok(vs[0])
  }

  /** `update master.variables set "value" = $2 where "key" = $1`: rewrites every row
      with the key, leaves every other row alone, and never inserts. The second
      component is the number of rows the update touched, the result's `rowCount`. */
  function SetMasterVariable(rows: seq<VarRow>, k: string, v: string): (r: (seq<VarRow>, nat))
    ensures |r.0| == |rows|
    ensures forall i :: 0 <= i < |rows| ==> r.0[i].key == rows[i].key
    ensures forall i :: 0 <= i < |rows| ==> r.0[i].value == if rows[i].key == k then v else rows[i].value
    ensures r.1 == 0 <==> Absent(rows, k)
    ensures r.1 == multiset(KeyList(rows))[k]
  {
    ValuesOfEmpty(rows, k);
    ValuesOfCount(rows, k);
    (seq(|rows|, i requires 0 <= i < |rows| => if rows[i].key == k then VarRow(k, v) else rows[i]),
     |ValuesOf(rows, k)|)
  }

  /** After an update, the key's rows all carry the new value and no row was added or dropped. */
  lemma {:induction false} SetValuesOf(rows: seq<VarRow>, k: string, v: string, other: string)
    ensures |ValuesOf(SetMasterVariable(rows, k, v).0, k)| == |ValuesOf(rows, k)|
    ensures forall x :: x in ValuesOf(SetMasterVariable(rows, k, v).0, k) ==> x == v
    ensures other != k ==> ValuesOf(SetMasterVariable(rows, k, v).0, other) == ValuesOf(rows, other)
  {
    if rows != [] {
      SetValuesOf(rows[1..], k, v, other);
      var r := SetMasterVariable(rows, k, v).0;
      assert r[1..] == SetMasterVariable(rows[1..], k, v).0;
    }
  }

  /** Reading a key after writing it: the new value when exactly one row had the key,
      and the same failure as before otherwise, since the update inserts nothing. */
  lemma GetAfterSet(rows: seq<VarRow>, k: string, v: string)
    ensures GetMasterVariable(SetMasterVariable(rows, k, v).0, k)
      == if GetMasterVariable(rows, k).Ok? then Ok(v) else GetMasterVariable(rows, k)
  {
    SetValuesOf(rows, k, v, k);
    var after := ValuesOf(SetMasterVariable(rows, k, v).0, k);
    if |after| == 1 {
      assert after[0] in after;
    }
  }

  /** Writing one key leaves the reading of every other key unchanged. */
  lemma GetOtherAfterSet(rows: seq<VarRow>, k: string, v: string, other: string)
    requires other != k
    ensures GetMasterVariable(SetMasterVariable(rows, k, v).0, other) == GetMasterVariable(rows, other)
  {
    SetValuesOf(rows, k, v, other);
  }

  /** `getWaitTime`: the single `waitTime` row's value; fails when there is none or more than one. */
  function GetWaitTime(rows: seq<VarRow>): (r: Result<string>)
    ensures r == Err(VariableNotFound(WaitTimeKey)) <==> Absent(rows, WaitTimeKey)
    ensures r == Err(VariableAmbiguous(WaitTimeKey)) <==> Duplicated(rows, WaitTimeKey)
    ensures r.Ok? <==> exists v :: UniqueRow(rows, WaitTimeKey, v)
    ensures r.Ok? ==> UniqueRow(rows, WaitTimeKey, r.value)
  {
    GetMasterVariable(rows, WaitTimeKey)
  }

  /** `setWaitTime`: every `waitTime` row takes the new value; nothing else changes. */
  function SetWaitTime(rows: seq<VarRow>, newTime: string): (r: (seq<VarRow>, nat))
    ensures |r.0| == |rows|
    ensures forall i :: 0 <= i < |rows| ==> r.0[i].key == rows[i].key
    ensures forall i :: 0 <= i < |rows| ==> r.0[i].value == if rows[i].key == WaitTimeKey then newTime else rows[i].value
    ensures r.1 == 0 <==> Absent(rows, WaitTimeKey)
    ensures r.1 == multiset(KeyList(rows))[WaitTimeKey]
  {
    SetMasterVariable(rows, WaitTimeKey, newTime)
  }

  /** `setMaxQueueLength`: every `maxLength` row takes the new value; nothing else changes. */
  function SetMaxQueueLength(rows: seq<VarRow>, newLength: string): (r: (seq<VarRow>, nat))
    ensures |r.0| == |rows|
    ensures forall i :: 0 <= i < |rows| ==> r.0[i].key == rows[i].key
    ensures forall i :: 0 <= i < |rows| ==> r.0[i].value == if rows[i].key == MaxLengthKey then newLength else rows[i].value
    ensures r.1 == 0 <==> Absent(rows, MaxLengthKey)
    ensures r.1 == multiset(KeyList(rows))[MaxLengthKey]
  {
    SetMasterVariable(rows, MaxLengthKey, newLength)
  }

  /** `parseInt(getMasterVariable("maxLength"))`. */
  function GetMaxQueueLengthInt(rows: seq<VarRow>): (r: Result<JsNumber>)
    ensures r.Ok? <==> exists v :: UniqueRow(rows, MaxLengthKey, v)
    ensures r.Ok? ==> exists v :: UniqueRow(rows, MaxLengthKey, v) && r.value == ParseInt(v)
  {
    match GetMasterVariable(rows, MaxLengthKey)
    case Ok(s) => Ok(ParseInt(s))
    case Err(e) => Err(e)
  }

  /** Storing a limit written as a decimal integer reads back as that integer. */
  lemma MaxQueueLengthRoundTrip(rows: seq<VarRow>, n: int)
    requires GetMasterVariable(rows, MaxLengthKey).Ok?
    ensures GetMaxQueueLengthInt(SetMaxQueueLength(rows, IntToString(n)).0) == Ok(Num(n))
  {
    GetAfterSet(rows, MaxLengthKey, IntToString(n));
    ParseIntOfIntToString(n);
  }

  /** A wait time written while exactly one `waitTime` row exists is what the next read
      returns; otherwise the read fails as it did before. */
  lemma WaitTimeRoundTrip(rows: seq<VarRow>, newTime: string)
    ensures GetWaitTime(SetWaitTime(rows, newTime).0)
      == if GetWaitTime(rows).Ok? then Ok(newTime) else GetWaitTime(rows)
  {
    GetAfterSet(rows, WaitTimeKey, newTime);
  }

  /** Changing the wait time never disturbs the queue-length limit. */
  lemma SetWaitTimeKeepsMaxLength(rows: seq<VarRow>, newTime: string)
    ensures GetMaxQueueLengthInt(SetWaitTime(rows, newTime).0) == GetMaxQueueLengthInt(rows)
  {
    GetOtherAfterSet(rows, WaitTimeKey, newTime, MaxLengthKey);
  }
}

=== FILE: view_stations.dfy ===
/** The station listing of `handlers/viewStations.js`: a direct-message guard, then one
    block per station, in ascending station-ID order, showing how many slots the global
    `maxLength` setting leaves free.

    The handler's awaits are modelled as reads of one state: the listing either is sent
    (`Some`) or the handler's promise rejects and nothing is sent (`None`). */
module ViewStations {
  import opened Types
  import opened Text
  import Registry
  import Variables
  import opened Queries

  /** The two ids of an incoming message: its sender and the chat it was posted in. */
  datatype Message = Message(fromId: ChatId, chatId: ChatId)

  /** A message the handler sends. */
  datatype Reply = Reply(to: ChatId, text: string)

  function DirectOnlyText(botName: string): string {
    "This command should be used by participants as a direct message to me at @" + botName
  }

  /** `Math.max(0, maxLength - queueLength)`; a NaN limit yields NaN. */
  function Slots(maxLength: JsNumber, queueLength: nat): (r: JsNumber)
    ensures r.NaN? <==> maxLength.NaN?
    ensures r.Num? ==> r.n >= 0 && r.n >= maxLength.n - queueLength
    ensures r.Num? && r.n > 0 ==> r.n == maxLength.n - queueLength
  {
    match maxLength
    case NaN => NaN
    case Num(m) => if m - queueLength > 0 then Num(m - queueLength) else Num(0)
  }

  function Block(name: string, slots: JsNumber): string {
    name + "\n" + "Slots available: " + NumberToString(slots) + "\n\n"
  }

  function Concat(parts: seq<string>): string {
    if parts == [] then [] else parts[0] + Concat(parts[1..])
  }

  /** The block shown for station `s`. */
  function StationBlock(st: State, maxLength: JsNumber, s: StationId): string
    requires s in st.tables
  {
    Block(NameKey(st, s), Slots(maxLength, |st.tables[s].entries|))
  }

  /** The loop body over `ids`: fails at the first station whose table is missing, since
      awaiting its queue-length query rejects. */
  function Blocks(st: State, maxLength: JsNumber, ids: seq<StationId>): (r: Result<seq<string>>)
    ensures r.Ok? <==> AllTabled(st, ids)
    ensures r.Err? ==> exists i :: 0 <= i < |ids| && ids[i] !in st.tables && r.error == NoSuchTable(ids[i])
    ensures r.Ok? ==> |r.value| == |ids|
    ensures r.Ok? ==> forall i :: 0 <= i < |ids| ==> r.value[i] == StationBlock(st, maxLength, ids[i])
  {
    if ids == [] then Ok([])
    else
      assert forall i :: 1 <= i < |ids| ==> ids[1..][i - 1] == ids[i];
      if ids[0] !in st.tables then Err(NoSuchTable(ids[0]))
      else
        match Blocks(st, maxLength, ids[1..])
        case Err(e) => Err(e)
        case Ok(rest) => Ok([StationBlock(st, maxLength, ids[0])] + rest)
  }

  /** `init(msg)`. Outside a direct chat only the guard text goes back to the chat. With no
      stations the site text alone is sent. Otherwise the `maxLength` setting and every
      station's queue length must be readable; the text is the site text followed by
      each station's block. */
  function Init(st: State, cfg: Config, msg: Message): (r: Option<Reply>)
    ensures msg.fromId != msg.chatId ==> r == Some(Reply(msg.chatId, DirectOnlyText(cfg.botName)))
    ensures msg.fromId == msg.chatId ==>
      (r.None? <==>
         (st.stations != map[]
          && (Variables.GetMaxQueueLengthInt(st.variables).Err? || exists s :: s in st.stations && s !in st.tables)))
    ensures msg.fromId == msg.chatId && r.Some? ==> r.value.to == msg.fromId
    ensures msg.fromId == msg.chatId && st.stations == map[] ==> r == Some(Reply(msg.fromId, cfg.websiteText))
  {
    if msg.fromId != msg.chatId then Some(Reply(msg.chatId, DirectOnlyText(cfg.botName)))
    else
      var ids := Registry.GetStationIDs(st.stations);
      StationsTabled(st);
      if ids == [] then Some(Reply(msg.fromId, cfg.websiteText))
      else
        match Variables.GetMaxQueueLengthInt(st.variables)
        case Err(_) => None
        case Ok(m) =>
          match Blocks(st, m, ids)
          case Err(_) => None
          case Ok(bs) => Some(Reply(msg.fromId, cfg.websiteText + Concat(bs)))
  }

  /** `bs` is one block per registered station, in strictly ascending station-ID order. */
  ghost predicate ListingOf(st: State, maxLength: JsNumber, bs: seq<string>) {
    exists ids: seq<StationId> :: ListingFor(st, maxLength, ids, bs)
  }

  /** `bs` holds the block of each station of `ids`, and `ids` lists every registered
      station once, in strictly ascending order. */
  ghost predicate ListingFor(st: State, maxLength: JsNumber, ids: seq<StationId>, bs: seq<string>) {
    && Registry.StrictlyAscending(ids)
    && (forall s :: s in ids <==> s in st.stations)
    && AllTabled(st, ids)
    && |bs| == |ids|
    && (forall i :: 0 <= i < |ids| ==> bs[i] == StationBlock(st, maxLength, ids[i]))
  }

  /** A listing that is sent is the site text, then the blocks of all stations in
      ascending ID order, each against the one global `maxLength`. */
  lemma InitListing(st: State, cfg: Config, msg: Message)
    requires msg.fromId == msg.chatId && st.stations != map[]
    requires Variables.GetMaxQueueLengthInt(st.variables).Ok?
    requires forall s :: s in st.stations ==> s in st.tables
    ensures Init(st, cfg, msg).Some?
    ensures exists bs ::
      ListingOf(st, Variables.GetMaxQueueLengthInt(st.variables).value, bs)
      && Init(st, cfg, msg).value.text == cfg.websiteText + Concat(bs)
  {
    var ids := Registry.GetStationIDs(st.stations);
    StationsTabled(st);
    var m := Variables.GetMaxQueueLengthInt(st.variables).value;
    var bs := Blocks(st, m, ids).value;
    assert Init(st, cfg, msg).value.text == cfg.websiteText + Concat(bs);
    BlocksAreListing(st, m);
  }

  /** The blocks of the ascending station list form the listing. */
  lemma BlocksAreListing(st: State, m: JsNumber)
    requires AllTabled(st, Registry.GetStationIDs(st.stations))
    ensures ListingOf(st, m, Blocks(st, m, Registry.GetStationIDs(st.stations)).value)
  {
    var ids := Registry.GetStationIDs(st.stations);
    var bs := Blocks(st, m, ids).value;
    assert ListingFor(st, m, ids, bs);
  }

  /** Blocks depend on station names and queue lengths only. */
  lemma {:induction false} BlocksIgnoreStationMax(st: State, m: JsNumber, ids: seq<StationId>, id: StationId, n: int)
    ensures Blocks(st.(stations := Registry.SetMax(st.stations, id, n)), m, ids) == Blocks(st, m, ids)
  {
    if ids != [] {
      BlocksIgnoreStationMax(st, m, ids[1..], id, n);
    }
  }

  /** The per-station `maxQueueLength` plays no part in the listing: writing it never
      changes what `init` sends. */
  lemma InitIgnoresStationMax(st: State, cfg: Config, msg: Message, id: StationId, n: int)
    ensures Init(st.(stations := Registry.SetMax(st.stations, id, n)), cfg, msg) == Init(st, cfg, msg)
  {
    var st' := st.(stations := Registry.SetMax(st.stations, id, n));
    assert st'.stations.Keys == st.stations.Keys;
    assert Registry.GetStationIDs(st'.stations) == Registry.GetStationIDs(st.stations);
    var ids := Registry.GetStationIDs(st.stations);
    match Variables.GetMaxQueueLengthInt(st.variables)
    case Err(_) =>
    case Ok(m) => BlocksIgnoreStationMax(st, m, ids, id, n);
  }

  /** After one more user joins a station, the listing shows one slot fewer for it,
      unless it already showed none. */
  lemma EnqueueTakesASlot(st: State, u: UserId, s: StationId, f: Faults, m: int)
    requires Consistent(st) && Enqueue(st, u, s, f).out == Pass
    ensures var before := Slots(Num(m), |st.tables[s].entries|);
      var after := Slots(Num(m), |Enqueue(st, u, s, f).state.tables[s].entries|);
      after.n == if before.n > 0 then before.n - 1 else 0
  {
    EnqueueGoesLast(st, u, s, f);
  }
}
